=== FILE: README.md ===
# Prevision schedule export — a Dafny model

This project models the batch job in `api_prevision.py`, which exports activity schedules from the Prevision construction-management API, and the two JSON loaders in `leitura_json.py`. The job works in four stages:

- It reads its integer settings from the environment.
- For each project in the project listing, it downloads the schedule with a bounded number of retries into a time-stamped raw JSON file. It then waits a configured interval and exports the activities to a per-project `activities_project_<id>.xlsx` sheet. The export coerces the column types and puts `project_id` and `project_name` columns in front.
- It merges every sheet in the output directory into one workbook.
- It deletes the raw responses.

The model is written in the same style as the source:

- **Pure functions and lemmas** cover the pure helpers: the settings parser, the file-name rules, the `or` chain that resolves the identifier, column insertion and concatenation, and the loaders.
- **Methods with loops** cover the code that works step by step: the retry loop, the chunked wait, the type-coercion loops, the consolidation loop, the cleanup and the main loop.

The outside world is passed in as parameters:

- the HTTP answers to each attempt, as a function from attempt number to `Response`;
- the clock reading for each download;
- whether deleting a file succeeds;
- the pandas cell parsers, as `Parsers`;
- the order in which the platform lists a directory, chosen by `ListDir`.

The effects are recorded as values:

- requests, sleeps and raw writes as an event trace;
- the sleeps of a wait as a list of durations;
- the three output locations as a `Disk` value;
- the uncaught exceptions that end a run as a `Crash`.

Modules:

- `Wrappers`: `Option` and `Result`.
- `Json`: JSON values, Python truthiness, `dict.get`, `str()` of values, decimal text.
- `Config`: `int(os.getenv(...))` with a fallback, and the four settings.
- `Names`: the raw and sheet file names, and the directory filters.
- `Throttle`: the wait between downloads.
- `Fetch`: the download with retries.
- `Frame`: a column-oriented table with pandas' `insert` and `concat`.
- `Export`: type coercion, identifier resolution, the leading columns and the export.
- `Consolidate`: merging the sheets.
- `Cleanup`: deleting the raw responses.
- `Pipeline`: `main`.
- `Loader`: `carregar_projetos` and `carregar_orcamentos`.

### Behaviour of the code worth knowing

- **Missing identifier.** `exportar_xlsx` raises `ValueError` when no identifier is found (`api_prevision.py:216-219`). `main` calls it outside any `try` (`api_prevision.py:282`), so the run ends there, without merging or cleaning up (`Crash.ExportRaised`).
- **Falsy identifiers.** The `or` chain (`api_prevision.py:210-215`) passes over falsy candidates and yields the last candidate when all are falsy. Only `None` is refused (`api_prevision.py:216`), so a final `0`, `""` or `false` is accepted and names the file.
- **Failed coercion.** The `Int64` cast raises on a non-integral number, and a value `to_numeric` cannot handle raises too (`api_prevision.py:194-199`). The exception is caught (`api_prevision.py:206-209`), so every later conversion is skipped, the date conversions included.
- **Merged sheets.** The merge reads every `activities_project_*.xlsx` in the output directory (`api_prevision.py:284`). That includes sheets left there by earlier runs, not only this run's.
- **Crashes in `main`.** A failed listing crashes the run at `json_projects['projects']` (`api_prevision.py:272`). So does a project without `id` or `name`, because `main` prints `project['id']` and `project['name']` (`api_prevision.py:273`).

## Model

| member | source | states |
|---|---|---|
| Config.GetIntEnv | api_prevision.py:34-38 | An unset variable gives the default. A value `int()` accepts is returned as parsed. A value `int()` rejects gives the default. |
| Config.ParseInt | api_prevision.py:36 | `int()` of text: empty text is refused, a run of ASCII digits reads as its decimal value, and a value is produced exactly when the text between the surrounding whitespace is an optional sign followed by digits with single `_` separators. |
| Config.ParseSigned | api_prevision.py:36 | Without the surrounding whitespace, `int()` succeeds exactly on an optional sign followed by a digit run. |
| Config.ParseDigits | api_prevision.py:36 | A plain run of ASCII digits reads as its decimal value. |
| Config.ParseIntIgnoresLeadingSpace | api_prevision.py:36 | `int()` skips ASCII whitespace before the number. |
| Config.ParseIntIgnoresTrailingSpace | api_prevision.py:36 | `int()` skips ASCII whitespace after the number. |
| Config.ParseIntOfDecimal | api_prevision.py:36 | `int()` reads back the decimal text of every integer, negative ones included. |
| Config.GetIntEnvRoundTrip | api_prevision.py:34-38 | A variable set to the decimal text of `v` reads as `v`, whatever the default. |
| Config.LoadSettings | api_prevision.py:40-43 | Each unset variable gives its documented default: 300 s wait, 300 s timeout, 3 retries, 300 s retry delay. |
| Throttle.Step | api_prevision.py:104 | The progress step is at least 1, is exactly 1 below 200 seconds, equals `seconds // 100` from 100 seconds up, and never exceeds a positive wait. |
| Throttle.Wait | api_prevision.py:95-111 | A non-positive wait sleeps not at all. Without a progress bar, a positive wait is one sleep of `seconds`. With a bar, the sleeps are full steps followed by one last partial step, and they add up to `seconds`. |
| Throttle.ChunkCount | api_prevision.py:104-111 | The chunked wait makes `ceil(seconds / step)` sleeps. |
| Throttle.TotalAppend | api_prevision.py:107-111 | Sleeping two lists in turn sleeps for their sum. |
| Fetch.FetchSchedule | api_prevision.py:55-94 | The retry loop returns the file path exactly when some attempt answers 200, and produces exactly the request, sleep and write trace of the reference schedule `Trace`. |
| Fetch.SucceedsAtFrom | api_prevision.py:60-80 | When attempt `k` is the first to answer 200, the download returns the raw file's path. |
| Fetch.SucceedsWritesLast | api_prevision.py:77-80 | When attempt `k` succeeds, the last event is writing attempt `k`'s body to the raw file. |
| Fetch.SucceedsAtCounts | api_prevision.py:60-92 | When attempt `k` succeeds: `k` requests, one write, and a sleep after each earlier failure if the delay is positive. |
| Fetch.ExhaustedFrom | api_prevision.py:60-94 | When every attempt fails: `None`, `max(0, retries)` requests, no write, and a sleep after every failure but the last if the delay is positive. |
| Fetch.ResultFrom | api_prevision.py:56-94 | The download returns a path exactly when some attempt within the limit answers 200. That path is the time-stamped raw file. The number of requests never exceeds the limit. |
| Fetch.FetchedWritesLast | api_prevision.py:77-80 | A successful download's trace ends in the write of the answer's body to the returned path. |
| Fetch.SleepsFollowFailures | api_prevision.py:85-92 | Every sleep in the trace lasts the retry delay. It comes right after a failed request that was not the last attempt. |
| Fetch.TraceStep | api_prevision.py:60-92 | One attempt of the reference schedule: a success ends it, and a failure adds the request and the pause to the rest. |
| Names.RawFileName | api_prevision.py:56-57 | The raw file name is `New_Request-`, then the millisecond timestamp's decimal text, then `.json`. |
| Names.SheetFileName | api_prevision.py:221 | The sheet name is `activities_project_`, then `str()` of the identifier, then `.xlsx`. |
| Names.IsRawJson | api_prevision.py:251 | The cleanup filter holds exactly for names of at least five characters that end in `.json`. |
| Names.IsSheetFile | api_prevision.py:284 | The merge filter holds exactly for names made of `activities_project_`, some middle part, and `.xlsx`: the two affixes never overlap. |
| Names.RawNameCleaned | api_prevision.py:56-57 | Every raw file name ends in `.json`, so the cleanup at line 251 deletes it. It is never taken for a sheet. |
| Names.SheetNameSelected | api_prevision.py:221 | Every export file name passes the consolidation filter at line 284 and escapes the cleanup. |
| Names.SheetNameInjective | api_prevision.py:221 | Distinct integer identifiers give distinct sheet files. |
| Names.RawFileNameInjective | api_prevision.py:56-57 | Downloads at distinct milliseconds write distinct raw files. |
| Json.Truthy | api_prevision.py:210-215 | Python truthiness: the falsy values are exactly `None`, `False`, `0`, `""`, `[]` and `{}`. |
| Json.Str | api_prevision.py:221-224 | `str()`: `None` prints as `None`, booleans as `True`/`False`, a string as itself, an integer as its decimal text (a `-` exactly for negatives, then digits). |
| Json.Get | api_prevision.py:212-214 | `dict.get`: the stored value when the key is present, otherwise `None`. |
| Json.IntToDecimal | api_prevision.py:57 | The f-string text of an integer: digits, with a leading `-` exactly for negatives. |
| Json.IntToDecimalInjective | api_prevision.py:57 | Distinct integers have distinct decimal texts. |
| Json.DigitsValueOfDecimal | api_prevision.py:57 | Decimal text read back gives the number. |
| Export.TypeMapWellFormed | api_prevision.py:139-187 | No column is listed twice in the type table or the date list, and no date column has a type entry. |
| Export.ConvertColumn | api_prevision.py:194-199 | `astype(str)` never fails and gives each cell's text. For float and Int64 columns, conversion fails exactly when some cell makes pandas raise. Otherwise each cell is a number exactly when it parses, and missing otherwise; a float or Int64 cell holds the parsed value. |
| Export.ConvertDates | api_prevision.py:203 | Each date cell is an instant exactly when it parses, and then holds the parsed instant; otherwise it is missing. |
| Export.ConvertMapped | api_prevision.py:190-199 | Listed columns are converted in order until one raises. The converted ones hold their conversion. The one that raised and those after it are untouched, and so are the unlisted ones. The shape is kept. |
| Export.ConvertDateColumns | api_prevision.py:201-203 | Exactly the listed date columns present are converted. Every other column and the shape are kept. |
| Export.CoerceTypes | api_prevision.py:189-209 | The conversion block converts the type columns up to the first raise. Date columns are converted only when nothing raised. Columns outside both lists are untouched. |
| Export.OrChainFirstTruthy | api_prevision.py:210-215 | Python's `or` chain yields the first truthy operand, or else the last operand. |
| Export.NestedProjectId | api_prevision.py:214 | `(data.get("project") or {}).get("id")`: a falsy `project` gives `None`. A truthy `project` that is not a dict raises (it has no `get`). A dict gives its `id`, or `None` without one. |
| Export.ResolveIdentifier | api_prevision.py:210-219 | A truthy argument wins, then a truthy top-level `project_id`, then a truthy `projectId`. A resolved identifier is never `None`. Failure means the first three were falsy and either the nested lookup raised because a truthy `project` is not a dict, or it gave `None`. |
| Export.ResolveIsOrChain | api_prevision.py:210-219 | The resolution is the four-way `or` chain, refused only when the chain gives `None`. |
| Export.InsertProjectId | api_prevision.py:222 | Inserting `project_id` fails exactly on a clash. Otherwise the column goes first, holds the identifier in every row, and every other column keeps its cells. |
| Export.InsertProjectName | api_prevision.py:223-224 | Inserting `project_name` fails exactly on a clash. Otherwise the column goes second, holds `str(name)` in every row, and every other column keeps its cells. |
| Export.AddLeadColumns | api_prevision.py:222-224 | The leading columns are `project_id`, plus `project_name` when a name is given. The insertion succeeds exactly when neither clashes, and every activity column keeps its cells. |
| Export.ExportActivities | api_prevision.py:128-233 | An unresolvable identifier is an error. Otherwise the export succeeds exactly when no leading column clashes. It writes to `<dir>/activities_project_<id>.xlsx` a sheet with every activity row, the leading columns, and the coerced columns of `Converted`. |
| Frame.Repeat | api_prevision.py:222 | A scalar inserted as a column fills every row. |
| Frame.Cells | api_prevision.py:243 | The cells of a column, or missing cells when the table lacks it. |
| Frame.SetColumn | api_prevision.py:195-203 | Assigning a column replaces only that column's cells. |
| Frame.Insert | api_prevision.py:222-224 | `DataFrame.insert` raises exactly on a duplicate name. Otherwise the new column sits at the position with one value per row, and the others keep their cells. |
| Frame.UnionColumns | api_prevision.py:243 | The merged column order is the first table's columns, then the new ones: every column of either table, once. |
| Frame.Concat | api_prevision.py:243 | `concat` stacks the rows, and its columns are the union of both tables', the left table's first. |
| Frame.ConcatWellFormed | api_prevision.py:243 | Concatenating two well-formed tables gives a well-formed table. |
| Frame.ConcatCells | api_prevision.py:243 | Each column of the result is that column of the first table, then of the second, with missing cells where a table lacks it. |
| Frame.ConcatEmptyLeft | api_prevision.py:235-243 | Appending a table to the empty start frame gives that table. |
| Consolidate.ConsolidateSheets | api_prevision.py:234-244 | No sheets means nothing is written. Otherwise the output is rewritten after each sheet with all sheets so far, and the last write holds them all. |
| Consolidate.ConsolidatedShape | api_prevision.py:241-244 | The final workbook is well formed. It has as many rows as all the sheets together and the union of their columns, and each column is every sheet's column in turn. |
| Consolidate.ConcatPrefixRow | api_prevision.py:241-243 | Row `i` of sheet `j` appears in the merge at offset `rows before j + i`, with the same cells. |
| Consolidate.ConcatPrefixColumns | api_prevision.py:241-243 | A column is in the merge exactly when some sheet has it. |
| Consolidate.ConcatPrefixHeight | api_prevision.py:241-243 | The merge has the sum of the sheets' rows. |
| Consolidate.ConcatPrefixCells | api_prevision.py:241-243 | Each merged column is the sheets' columns one after the other. |
| Consolidate.FirstWriteIsFirstSheet | api_prevision.py:235-244 | The first write holds the first sheet unchanged. |
| Cleanup.JsonEntries | api_prevision.py:248-252 | The files selected for removal are exactly the listed names ending in `.json`, with no repeats. |
| Cleanup.JsonEntriesAppend | api_prevision.py:248-252 | The filter keeps listing order: filtering two listings in turn gives the first's entries, then the second's. |
| Cleanup.JsonEntriesSingle | api_prevision.py:251 | A single listed name is kept exactly when it ends in `.json`. |
| Cleanup.CleanRawResponses | api_prevision.py:245-260 | A missing directory removes nothing. Otherwise only `.json` files are removed, every other file stays, and if every removal succeeds no `.json` file is left. A failed removal stops the loop. |
| Pipeline.Projects | api_prevision.py:270-272 | A failed listing, or one without a `projects` entry, crashes. A listing whose `projects` entry is an array yields exactly that array. |
| Pipeline.Identity | api_prevision.py:273-276 | A project is handled exactly when it is a dict with both `id` and `name`, and then its `id` and `name` are used. |
| Pipeline.ListDir | api_prevision.py:284 | A directory listing names every file once, in an unspecified order. |
| Pipeline.SheetsInOrder | api_prevision.py:284 | The sheets are read in listing order. |
| Pipeline.SaveSheet | api_prevision.py:282 | The export fails exactly when the identifier cannot be resolved or a leading column clashes, and then the sheets directory is unchanged. A successful one writes the sheet named after the resolved identifier, holding the project's activities and leading columns with its typed and date columns converted per `Converted`, and keeps every other sheet's contents. |
| Pipeline.SheetFiled | api_prevision.py:220-232 | Filing an exported sheet under its `activities_project_<id>.xlsx` name adds that one sheet, keeps every other, and the filed sheet keeps the export's content and conversions. |
| Pipeline.StoreAndExport | api_prevision.py:276-282 | The downloaded payload is stored under the raw name, then exported per `SaveSheet`: the sheet written holds the project's activities with the leading identifier and name columns, and its typed and date columns converted per `Converted`. |
| Pipeline.Download | api_prevision.py:276-278 | The download follows the retry schedule into the project's own raw file, then the configured wait follows whatever the outcome. A success ends in writing the raw file. |
| Pipeline.RunProject | api_prevision.py:273-282 | One project is downloaded with the retries into its own raw file. Then comes the configured wait, whatever the outcome. It is exported exactly when the download worked, under the name of the identifier resolved from the downloaded document. The raw directory becomes exactly the old one with the project's raw file set to the payload. The sheet written holds the project's activities with the leading identifier and name columns, its typed and date columns converted per `Converted` (`LogHolds`). Every other sheet keeps its contents (`ProjectDone`, `ProjectStored`). |
| Pipeline.ExportDownload | api_prevision.py:276-282 | A project whose download worked is exported from the payload it downloaded, and its log records that export. What it leaves on disk is `ProjectStored`: exactly its raw file, holding the payload, and its sheet, holding the project's export with the conversions, are written, and every other file keeps its contents. |
| Pipeline.StoredAndExported | api_prevision.py:276-282 | Storing and exporting one payload adds exactly the project's raw file and sheet and keeps every other file's contents; the sheet holds the project's export, conversions included (`LogHolds`). |
| Pipeline.ExportedDone | api_prevision.py:273-282 | A downloaded project's export is the one its resolved identifier and leading columns determine. |
| Pipeline.KeepsTrans | api_prevision.py:272-282 | Files kept through two steps are kept through both, outside the union of what each wrote. |
| Pipeline.KeepsUpdate | api_prevision.py:276-282 | Writing one file keeps every other. |
| Pipeline.Advance | api_prevision.py:272-282 | Running the next project extends the log and keeps the loop's promises: the raw directory stays the old one overwritten by the run's raw files, and every sheet the run wrote holds its last writer's export, conversions included (`SheetsHold`). |
| Pipeline.ProjectLoop | api_prevision.py:272-282 | Every project before the stop was handled per `ProjectDone`. The loop stops at the first project without `id` or `name`, or at the first export that raises. It writes exactly those projects' raw files and sheets. The raw directory is the old one overwritten by each download's payload, the last download under a name winning. Each sheet written holds the export of the last project that wrote it: its activities, the leading columns, and the typed and date columns converted per `Converted` (`SheetsHold`). Every other file keeps its contents. |
| Pipeline.RawFilesLastWriter | api_prevision.py:56-79 | A download's raw file holds its payload unless a later download wrote under the same name. |
| Pipeline.RawFilesAppend | api_prevision.py:272-282 | One more project adds its raw file, if its download wrote one. |
| Pipeline.RawFilesStep | api_prevision.py:272-282 | One more project keeps the raw directory equal to the old one overwritten by the run's raw files. |
| Pipeline.LastExport | api_prevision.py:282 | A sheet was written by the run exactly when some project exported to it; the one found did, and no later project did. |
| Pipeline.SheetsHoldAppend | api_prevision.py:272-282 | One more export keeps every sheet the run wrote holding its last writer's export, conversions included. |
| Pipeline.Finish | api_prevision.py:283-287 | The merge takes exactly the sheet files in the directory, once each, in listing order. No sheet leaves the workbook unchanged. The cleanup keeps every non-JSON raw file and, when removals succeed, leaves no `.json` file. |
| Pipeline.Run | api_prevision.py:265-288 | A failed listing crashes before any work. A crash in the loop skips the merge and the cleanup, and leaves the raw directory as the old one overwritten by the run's raw files. A complete run handled every project, then merged all the sheets and cleaned the raw directory; every raw file left holds what it held before or what the run wrote last under its name. Every sheet, and so every sheet merged, holds the export of the last project of the run that wrote it (activities, leading columns, and conversions per `Converted`), or predates the run unchanged. |
| Pipeline.SheetsExplained | api_prevision.py:272-287 | After the loop, every sheet in the directory holds the export of the last project of the run that wrote it, conversions included, or is a sheet from before the run that the run did not touch. |
| Pipeline.SheetExplained | api_prevision.py:272-287 | The same, for one sheet. |
| Pipeline.LogsDoneAppend | api_prevision.py:272-282 | A correctly handled next project extends a correct log. |
| Pipeline.WrittenAllAppend | api_prevision.py:272-282 | The files a run has written grow by exactly the next project's files. |
| Loader.IdOf | leitura_json.py:14 | `projeto['id'] if 'id' in projeto`: for objects a key test, for strings a substring test, for arrays a membership test. Subscripting a string or an array, or testing a number, `None` or a boolean, raises `TypeError`. |
| Loader.ExtractIds | leitura_json.py:14 | The comprehension keeps at most one id per item. |
| Loader.ExtractIdsOk | leitura_json.py:14 | The comprehension succeeds exactly when no item raises. |
| Loader.ExtractIdsCount | leitura_json.py:14 | On a list of objects, it returns one id per object with an `id` key. |
| Loader.ExtractIdsOfRecords | leitura_json.py:14 | On a list of objects, the `k`-th id is the `id` of the `k`-th object having one, in list order. |
| Loader.IdPositions | leitura_json.py:14 | The positions of the objects with an `id` lie within the list. |
| Loader.IdPositionsSound | leitura_json.py:14 | Every recorded position holds an object with an `id`. |
| Loader.IdPositionsIncreasing | leitura_json.py:14 | The positions are strictly increasing, so list order is kept. |
| Loader.IdPositionsComplete | leitura_json.py:14 | Every object with an `id` is recorded. |
| Loader.NoIdsGiveEmpty | leitura_json.py:14-17 | Objects without `id` give the empty list. |
| Loader.LoadProjects | leitura_json.py:3-25 | A missing or undecodable file gives `[]`. An unreadable one (a directory, no permission, invalid UTF-8) raises. An array gives its records' ids. An object raises exactly when some key contains `id`, and otherwise gives `[]`. A string gives `[]`. `None`, booleans and numbers raise. |
| Loader.LoadBudgets | leitura_json.py:27-49 | The budget loader gives the same result as the project loader on every content: `[]` for a missing or undecodable file, an error for an unreadable one, the ids for an array, an error or `[]` for an object, `[]` for a string, an error for `None`, booleans and numbers. |

The contracts above use these definitions, which state source behaviour without a contract of their own: `Config.GetEnv` (`os.getenv`, api_prevision.py:36), `Names.Join` (`os.path.join`, api_prevision.py:58), `Export.OrChain` (Python's `or`, api_prevision.py:210-215), `Export.Converted` (what the conversion block leaves, api_prevision.py:189-209), `Pipeline.Downloaded` (the payload written to the raw file, api_prevision.py:77-79), `Pipeline.ProjectStored` (what one project leaves on disk: its raw file and its sheet written, every other file kept, api_prevision.py:273-282), `Pipeline.LogHolds` (a sheet holding a project's export: its downloaded activities with the leading columns, and the typed and date columns converted per `Converted`, api_prevision.py:189-232), `Pipeline.RawFiles` (the run's raw files, last writer winning), `Pipeline.SheetsHold` and `Pipeline.Explained` (the sheets the run wrote, and every sheet merged, tied to the exports).

## Left out

- Fetch.FetchSchedule: every 200 answer counts as a success. In the code, a 200 answer whose body is not JSON makes `response.json()` raise at `api_prevision.py:79`. That is outside the `try`, so the run crashes, after `open` on line 78 has already created an empty raw file. The model's answers carry a decoded body.
- HTTP: the URL, the headers, the token and the request timeout are not modelled. Each attempt is reduced to its answer: 200 with a body, another status, or a `RequestException`. The answers are an input.
- `listar_projetos` (`api_prevision.py:113-127`) is not modelled beyond its result: the listing, or `None`, is an input to `Run`.
- `load_dotenv` (`api_prevision.py:24`), the import-time `os.makedirs` and the exit when `API_TOKEN` is missing (`api_prevision.py:45-49`) happen before `main`. The environment is a map from name to text.
- Real time: `time.time()` is an input per download, and `time.sleep` is recorded as a duration. Whether `tqdm` is installed is a boolean.
- `print` output is not modelled.
- `os.makedirs` calls in the export, the merge and `main` are not modelled: the directories are assumed to exist.
- Writing JSON with `json.dump` and reading it back with `json.load` is assumed lossless. The raw file stores the payload.
- The `openpyxl` write/read round trip of the sheets is assumed lossless. A sheet is read back as the table that was written.
- `json_normalize` is not modelled: the payload carries its flattened `activities` table. The model therefore assumes every downloaded document has an `activities` list. In the code, `pd.json_normalize(data_dict, record_path='activities')` (`api_prevision.py:136`) raises `KeyError` when the document has no `activities` key and `TypeError` when the document is not an object. `main` calls `exportar_xlsx` outside any `try` (`api_prevision.py:282`), so such a payload ends the run before the merge and the cleanup, as `Crash.ExportRaised` does.
- The pandas parsers (`to_numeric`, `astype(str)`, `to_datetime`) are abstract per-cell functions, given as `Parsers`.
- JSON numbers are integers. Floating-point values in the JSON files are not modelled.
- Config.ParseInt: Unicode digits and Unicode whitespace, which Python's `int()` also accepts, are not modelled; ASCII digits, a sign, `_` separators and ASCII whitespace are.
- Json.Str: the text of lists and objects is a fixed placeholder, not Python's `repr`. This matters for `project_name` values and for identifiers that are lists or objects, whose sheet name (`api_prevision.py:221`) embeds that text.
- Export.InsertProjectId: list and dict identifiers are not modelled as pandas treats them. `DataFrame.insert` (`api_prevision.py:222`) takes a list as one value per row: it raises `ValueError` when the list's length differs from the row count, and otherwise fills the column element by element. A dict is aligned to the row index. The model fills every row with the identifier itself, as for a scalar.
- Frame.Cells: on a malformed table it returns missing cells; every table the model builds is well formed.
- Pipeline.SaveSheet: states that some stopping point of the conversion explains the sheet, not which one; `Export.ExportActivities` returns it. `Pipeline.LogHolds`, and so the contracts of `StoreAndExport`, `RunProject`, `ExportDownload`, `Advance`, `ProjectLoop` and `Run`, state the conversion the same way.
- Pipeline.Run: the raw files and sheets are keyed by name. Paths outside the two directories are not modelled.

=== FILE: Cleanup.dfy ===
/**
 * Deleting the raw responses after consolidation (`limpar_respostas_raw`).
 * The directory is given by its listing; each removal either succeeds or
 * raises, as the `removable` oracle says.
 */
module Cleanup {
  import opened Wrappers
  import opened Names

  ghost predicate NoDuplicates(names: seq<string>) {
    forall i, j :: 0 <= i < j < |names| ==> names[i] != names[j]
  }

  /** The listing entries that end in `.json`, in listing order. */
  function JsonEntries(names: seq<string>): (r: seq<string>)
    ensures forall n :: n in r <==> n in names && IsRawJson(n)
    ensures |r| <= |names|
    ensures NoDuplicates(names) ==> NoDuplicates(r)
  {
    if names == [] then []
    else
      var rest := JsonEntries(names[1..]);
      assert forall n :: n in names <==> n == names[0] || n in names[1..];
      if IsRawJson(names[0]) then
        assert NoDuplicates(names) ==> names[0] !in names[1..];
        [names[0]] + rest
      else rest
  }

  /** Filtering keeps listing order: the entries of two listings in turn are
      those of the first, then those of the second. */
  lemma {:induction false} JsonEntriesAppend(a: seq<string>, b: seq<string>)
    ensures JsonEntries(a + b) == JsonEntries(a) + JsonEntries(b)
    decreases |a|
  {
    if a == [] {
      assert a + b == b;
    } else {
      assert (a + b)[0] == a[0] && (a + b)[1..] == a[1..] + b;
      JsonEntriesAppend(a[1..], b);
    }
  }

  /** A single entry is kept exactly when it ends in `.json`. */
  lemma JsonEntriesSingle(n: string)
    ensures JsonEntries([n]) == if IsRawJson(n) then [n] else []
  {
    assert [n][1..] == [];
  }

  /**
   * Lists the directory, then deletes the `.json` entries one by one. A
   * missing directory is a no-op. The first removal that raises ends the
   * cleanup (the error is logged, not raised): `removed` is what was deleted,
   * a prefix of the `.json` entries, and `after` is what the directory then
   * holds. Entries that do not end in `.json` are never deleted.
   */
  method CleanRawResponses(listing: Option<seq<string>>, removable: string -> bool)
    returns (removed: seq<string>, after: Option<set<string>>)
    requires listing.Some? ==> NoDuplicates(listing.value)
    ensures listing.None? ==> removed == [] && after.None?
    ensures listing.Some? ==> after == Some((set n | n in listing.value) - (set n | n in removed))
    ensures listing.Some? ==>
              && |removed| <= |JsonEntries(listing.value)|
              && removed == JsonEntries(listing.value)[..|removed|]
              && (forall n :: n in removed ==> removable(n))
              && (|removed| < |JsonEntries(listing.value)| ==> !removable(JsonEntries(listing.value)[|removed|]))
    ensures listing.Some? ==> forall n :: n in listing.value && !IsRawJson(n) ==> n in after.value
    ensures listing.Some? && (forall n :: n in listing.value && IsRawJson(n) ==> removable(n)) ==>
              forall n :: n in after.value <==> n in listing.value && !IsRawJson(n)
  {
    if listing.None? {
      return [], None;
    }
    var entries := JsonEntries(listing.value);
    removed := [];
    var k := 0;
    while k < |entries|
      invariant 0 <= k <= |entries|
      invariant removed == entries[..k]
      invariant forall n :: n in removed ==> removable(n)
    {
      if !removable(entries[k]) {
        break;
      }
      removed := removed + [entries[k]];
      k := k + 1;
    }
    after := Some((set n | n in listing.value) - (set n | n in removed));
    forall n | n in listing.value && !IsRawJson(n) ensures n in after.value {
      assert n !in entries;
    }
  }
}

=== FILE: Config.dfy ===
/**
 * Run configuration: integer settings read from the process environment with
 * a fallback default (`_get_int_env`), and the four settings the pipeline uses.
 */
module Config {
  import opened Wrappers
  import opened Json

  /** The ASCII whitespace that `int()` skips around its digits. */
  predicate IsSpace(c: char) {
    c == ' ' || c == '\t' || c == '\n' || c == '\r' || c == 11 as char || c == 12 as char
  }

  function TrimStart(s: string): (r: string)
    ensures r == [] || !IsSpace(r[0])
    ensures |r| <= |s| && r == s[|s| - |r|..]
  {
    if s != [] && IsSpace(s[0]) then TrimStart(s[1..]) else s
  }

  function TrimEnd(s: string): (r: string)
    ensures r == [] || !IsSpace(r[|r| - 1])
    ensures |r| <= |s| && r == s[..|r|]
  {
    if s != [] && IsSpace(s[|s| - 1]) then TrimEnd(s[..|s| - 1]) else s
  }

  /** Digits, where a single `_` may separate two digits (`1_000`). */
  predicate IsDigitRun(s: string) {
    && |s| >= 1
    && IsDigit(s[0])
    && IsDigit(s[|s| - 1])
    && forall i :: 0 <= i < |s| ==> IsDigit(s[i]) || SeparatorAt(s, i)
  }

  /** Position `i` holds an underscore with a digit on each side. */
  predicate SeparatorAt(s: string, i: int)
    requires 0 <= i < |s|
  {
    s[i] == '_' && 0 < i < |s| - 1 && IsDigit(s[i - 1]) && IsDigit(s[i + 1])
  }

  predicate DigitsOrUnderscores(s: string) {
    forall i :: 0 <= i < |s| ==> IsDigit(s[i]) || s[i] == '_'
  }

  lemma DigitRunChars(s: string)
    requires IsDigitRun(s)
    ensures DigitsOrUnderscores(s)
  {
    forall i | 0 <= i < |s| ensures IsDigit(s[i]) || s[i] == '_' {
      assert IsDigit(s[i]) || SeparatorAt(s, i);
    }
  }

  function RemoveUnderscores(s: string): (r: string)
    ensures DigitsOrUnderscores(s) ==> AllDigits(r)
    ensures AllDigits(s) ==> r == s
  {
    if s == [] then []
    else (if s[0] == '_' then [] else [s[0]]) + RemoveUnderscores(s[1..])
  }

  /**
   * Python's `int(text)` in base 10: surrounding whitespace is ignored, an
   * optional sign, then a digit run; anything else is a `ValueError` (`None`).
   */
  function ParseInt(text: string): (r: Option<int>)
    ensures text == [] ==> r.None?
    ensures text != [] && AllDigits(text) ==> r == Some(DigitsValue(text))
    ensures r.Some? <==> IsIntLiteral(TrimEnd(TrimStart(text)))
  {
    var t := TrimEnd(TrimStart(text));
    if text != [] && AllDigits(text) then
      DigitsTrimmed(text);
      ParseDigits(text);
      ParseSigned(t)
    else
      ParseSigned(t)
  }

  /** A plain run of digits has no whitespace to trim. */
  lemma DigitsTrimmed(text: string)
    requires text != [] && AllDigits(text)
    ensures TrimEnd(TrimStart(text)) == text
  {
    assert TrimStart(text) == text by {
      assert IsDigit(text[0]);
    }
    assert TrimEnd(text) == text by {
      assert IsDigit(text[|text| - 1]);
    }
  }

  /** A plain run of digits is read as its decimal value. */
  lemma ParseDigits(text: string)
    requires text != [] && AllDigits(text)
    ensures ParseSigned(text) == Some(DigitsValue(text))
  {
    assert IsDigit(text[0]);
    assert IsDigitRun(text);
    assert RemoveUnderscores(text) == text;
  }

  /** An optional sign followed by a digit run. */
  predicate IsIntLiteral(t: string) {
    IsDigitRun(t) || (|t| >= 1 && (t[0] == '-' || t[0] == '+') && IsDigitRun(t[1..]))
  }

  /** `int()` on the text between the surrounding whitespace. */
  function ParseSigned(t: string): (r: Option<int>)
    ensures r.Some? <==> IsIntLiteral(t)
  {
    var negative := t != [] && t[0] == '-';
    var body := if t != [] && (t[0] == '-' || t[0] == '+') then t[1..] else t;
    if IsDigitRun(body) then
      DigitRunChars(body);
      var magnitude: int := DigitsValue(RemoveUnderscores(body));
      Some(if negative then -magnitude else magnitude)
    else None
  }

  lemma DecimalIsDigitRun(n: nat)
    ensures IsDigitRun(NatToDecimal(n)) && RemoveUnderscores(NatToDecimal(n)) == NatToDecimal(n)
  {
    var d := NatToDecimal(n);
    assert forall i :: 0 <= i < |d| ==> IsDigit(d[i]);
  }

  /** Leading whitespace does not change what `int()` reads. */
  lemma ParseIntIgnoresLeadingSpace(c: char, text: string)
    requires IsSpace(c)
    ensures ParseInt([c] + text) == ParseInt(text)
  {
    assert ([c] + text)[1..] == text;
  }

  /** Trailing whitespace does not change what `int()` reads. */
  lemma ParseIntIgnoresTrailingSpace(c: char, text: string)
    requires IsSpace(c)
    ensures ParseInt(text + [c]) == ParseInt(text)
  {
    TrimStartAppendSpace(text, c);
    var t := TrimStart(text);
    if t != [] {
      assert (t + [c])[..|t|] == t;
    }
  }

  /** Trimming the front of a text that ends in a space. */
  lemma {:induction false} TrimStartAppendSpace(s: string, c: char)
    requires IsSpace(c)
    ensures TrimStart(s + [c]) == if TrimStart(s) == [] then [] else TrimStart(s) + [c]
    decreases |s|
  {
    if s == [] {
      assert [c][1..] == [];
    } else if IsSpace(s[0]) {
      assert (s + [c])[1..] == s[1..] + [c];
      TrimStartAppendSpace(s[1..], c);
    }
  }

  /** `int()` reads back what `str()` writes, for every integer. */
  lemma ParseIntOfDecimal(i: int)
    ensures ParseInt(IntToDecimal(i)) == Some(i)
  {
    DecimalIsTrimmed(i);
    ParseSignedOfDecimal(i);
  }

  /** Decimal text has no surrounding whitespace. */
  lemma DecimalIsTrimmed(i: int)
    ensures TrimEnd(TrimStart(IntToDecimal(i))) == IntToDecimal(i)
  {
    DecimalStartsTrimmed(i);
    DecimalEndsTrimmed(i);
  }

  lemma DecimalStartsTrimmed(i: int)
    ensures TrimStart(IntToDecimal(i)) == IntToDecimal(i)
  {
    var s := IntToDecimal(i);
    assert !IsSpace(s[0]);
  }

  lemma DecimalEndsTrimmed(i: int)
    ensures TrimEnd(IntToDecimal(i)) == IntToDecimal(i)
  {
    var s := IntToDecimal(i);
    var n: nat := if i < 0 then -i else i;
    var digits := NatToDecimal(n);
    assert s[|s| - 1] == digits[|digits| - 1];
    assert !IsSpace(s[|s| - 1]);
  }

  /** The sign and digits of decimal text read back as the integer. */
  lemma ParseSignedOfDecimal(i: int)
    ensures ParseSigned(IntToDecimal(i)) == Some(i)
  {
    var s := IntToDecimal(i);
    var n: nat := if i < 0 then -i else i;
    var digits := NatToDecimal(n);
    var body := if i < 0 then s[1..] else s;
    assert body == digits;
    DecimalIsDigitRun(n);
    DigitsValueOfDecimal(n);
  }

  /** A setting in the environment, as `os.getenv` sees it. */
  function GetEnv(env: map<string, string>, name: string): Option<string> {
    if name in env then Some(env[name]) else None
  }

  /**
   * `_get_int_env`: the integer the variable holds, or the default when the
   * variable is unset or does not parse (`int(default)` is the default itself).
   */
  function GetIntEnv(env: map<string, string>, name: string, default: int): (r: int)
    ensures name !in env ==> r == default
    ensures r != default ==> name in env && ParseInt(env[name]) == Some(r)
    ensures name in env && ParseInt(env[name]).None? ==> r == default
    ensures name in env && ParseInt(env[name]).Some? ==> r == ParseInt(env[name]).value
  {
    match GetEnv(env, name)
    case None => default
    case Some(text) => match ParseInt(text) { case Some(v) => v case None => default }
  }

  /** An integer written into the environment is read back as itself. */
  lemma GetIntEnvRoundTrip(env: map<string, string>, name: string, value: int, default: int)
    ensures GetIntEnv(env[name := IntToDecimal(value)], name, value) == value
    ensures GetIntEnv(env[name := IntToDecimal(value)], name, default) == value
  {
    var text := IntToDecimal(value);
    var e := env[name := text];
    assert name in e && e[name] == text;
    ParseIntOfDecimal(value);
  }

  /** The four integer settings of a run. */
  datatype Settings = Settings(waitSeconds: int, requestTimeout: int, maxRetries: int, retryDelay: int)

  const DefaultWaitSeconds := 300
  const DefaultRequestTimeout := 300
  const DefaultMaxRetries := 3
  const DefaultRetryDelay := 300

  /** The settings as the module loads them at start-up. */
  function LoadSettings(env: map<string, string>): (s: Settings)
    ensures "PREVISION_WAIT_SECONDS" !in env ==> s.waitSeconds == DefaultWaitSeconds
    ensures "PREVISION_REQUEST_TIMEOUT" !in env ==> s.requestTimeout == DefaultRequestTimeout
    ensures "PREVISION_MAX_RETRIES" !in env ==> s.maxRetries == DefaultMaxRetries
    ensures "PREVISION_RETRY_DELAY" !in env ==> s.retryDelay == DefaultRetryDelay
  {
    Settings(
      GetIntEnv(env, "PREVISION_WAIT_SECONDS", DefaultWaitSeconds),
      GetIntEnv(env, "PREVISION_REQUEST_TIMEOUT", DefaultRequestTimeout),
      GetIntEnv(env, "PREVISION_MAX_RETRIES", DefaultMaxRetries),
      GetIntEnv(env, "PREVISION_RETRY_DELAY", DefaultRetryDelay))
  }
}

=== FILE: Consolidate.dfy ===
/**
 * Merging the per-project sheets into one workbook
 * (`consolidar_planilha_atividades`). Each full rewrite of the output file is
 * returned, in order.
 */
module Consolidate {
  import opened Frame

  /** The accumulator after appending the first `k` tables, in order, to an
      empty frame. */
  function ConcatPrefix(tables: seq<DataFrame>, k: nat): DataFrame
    requires k <= |tables|
  {
    if k == 0 then Empty else Concat(ConcatPrefix(tables, k - 1), tables[k - 1])
  }

  /** All the tables appended, in order. */
  function ConcatAll(tables: seq<DataFrame>): DataFrame {
    ConcatPrefix(tables, |tables|)
  }

  /** The number of rows in the first `k` tables. */
  function PrefixHeight(tables: seq<DataFrame>, k: nat): nat
    requires k <= |tables|
  {
    if k == 0 then 0 else PrefixHeight(tables, k - 1) + tables[k - 1].height
  }

  /** The number of rows in all the tables. */
  function SumHeights(tables: seq<DataFrame>): nat {
    PrefixHeight(tables, |tables|)
  }

  /** One of the first `k` tables has column `c`. */
  predicate HasColumnBefore(tables: seq<DataFrame>, k: nat, c: string)
    requires k <= |tables|
  {
    exists j :: 0 <= j < k && c in tables[j].columns
  }

  /** Some table has column `c`. */
  predicate HasColumn(tables: seq<DataFrame>, c: string) {
    HasColumnBefore(tables, |tables|, c)
  }

  /** Every table is as pandas keeps it. */
  ghost predicate AllWellFormed(tables: seq<DataFrame>) {
    forall j :: 0 <= j < |tables| ==> WellFormed(tables[j])
  }

  /** Appending well-formed tables gives a well-formed table. */
  lemma {:induction false} ConcatPrefixWellFormed(tables: seq<DataFrame>, k: nat)
    requires k <= |tables| && AllWellFormed(tables)
    ensures WellFormed(ConcatPrefix(tables, k))
  {
    if k > 0 {
      ConcatPrefixWellFormed(tables, k - 1);
      ConcatWellFormed(ConcatPrefix(tables, k - 1), tables[k - 1]);
    }
  }

  /** The merged table has as many rows as its inputs together. */
  lemma {:induction false} ConcatPrefixHeight(tables: seq<DataFrame>, k: nat)
    requires k <= |tables|
    ensures ConcatPrefix(tables, k).height == PrefixHeight(tables, k)
  {
    if k > 0 {
      ConcatPrefixHeight(tables, k - 1);
    }
  }

  /** The tables before `k` have column `c` when those before `k - 1` or
      table `k - 1` do. */
  lemma HasColumnBeforeStep(tables: seq<DataFrame>, k: nat, c: string)
    requires 0 < k <= |tables|
    ensures HasColumnBefore(tables, k, c) <==> HasColumnBefore(tables, k - 1, c) || c in tables[k - 1].columns
  {
    if HasColumnBefore(tables, k, c) {
      var j :| 0 <= j < k && c in tables[j].columns;
      if j < k - 1 {
        assert HasColumnBefore(tables, k - 1, c);
      }
    }
  }

  /** The merged table's columns are the union of its inputs' columns. */
  lemma {:induction false} ConcatPrefixColumns(tables: seq<DataFrame>, k: nat, c: string)
    requires k <= |tables|
    ensures c in ConcatPrefix(tables, k).columns <==> HasColumnBefore(tables, k, c)
  {
    if k > 0 {
      ConcatPrefixColumns(tables, k - 1, c);
      HasColumnBeforeStep(tables, k, c);
    }
  }

  /** The rows of table `j` come after those of the tables before it and
      before the end of the first `k`. */
  lemma {:induction false} PrefixHeightBound(tables: seq<DataFrame>, j: nat, k: nat)
    requires j < k <= |tables|
    ensures PrefixHeight(tables, j) + tables[j].height <= PrefixHeight(tables, k)
  {
    if j < k - 1 {
      PrefixHeightBound(tables, j, k - 1);
    }
  }

  /** Column `c` of each of the first `k` tables, one after the other. */
  function ColumnPrefix(tables: seq<DataFrame>, k: nat, c: string): seq<Cell>
    requires k <= |tables|
  {
    if k == 0 then [] else ColumnPrefix(tables, k - 1, c) + Cells(tables[k - 1], c)
  }

  /** Column `c` of the merged table is column `c` of every input in turn,
      an input without that column contributing missing cells. */
  lemma {:induction false} ConcatPrefixCells(tables: seq<DataFrame>, k: nat, c: string)
    requires k <= |tables| && AllWellFormed(tables)
    ensures Cells(ConcatPrefix(tables, k), c) == ColumnPrefix(tables, k, c)
  {
    if k > 0 {
      ConcatPrefixWellFormed(tables, k - 1);
      ConcatCells(ConcatPrefix(tables, k - 1), tables[k - 1], c);
      ConcatPrefixCells(tables, k - 1, c);
    }
  }

  /** The first `k` tables' column `c` has one cell per row. */
  lemma {:induction false} ColumnPrefixLength(tables: seq<DataFrame>, k: nat, c: string)
    requires k <= |tables|
    ensures |ColumnPrefix(tables, k, c)| == PrefixHeight(tables, k)
  {
    if k > 0 {
      ColumnPrefixLength(tables, k - 1, c);
    }
  }

  /** Row `i` of table `j` sits at `PrefixHeight(tables, j) + i`. */
  lemma {:induction false} ColumnPrefixAt(tables: seq<DataFrame>, k: nat, j: nat, c: string, i: nat)
    requires j < k <= |tables| && i < tables[j].height
    ensures PrefixHeight(tables, j) + i < |ColumnPrefix(tables, k, c)|
    ensures ColumnPrefix(tables, k, c)[PrefixHeight(tables, j) + i] == Cells(tables[j], c)[i]
  {
    ColumnPrefixLength(tables, k - 1, c);
    ColumnPrefixLength(tables, k, c);
    PrefixHeightBound(tables, j, k);
    if j < k - 1 {
      ColumnPrefixAt(tables, k - 1, j, c, i);
      PrefixHeightBound(tables, j, k - 1);
    }
  }

  /**
   * The merged table keeps every input row: row `i` of input `j` sits at
   * `PrefixHeight(tables, j) + i`, with that row's cells, and a missing cell
   * in every column input `j` lacks.
   */
  lemma ConcatPrefixRow(tables: seq<DataFrame>, k: nat, j: nat, c: string, i: nat)
    requires j < k <= |tables| && i < tables[j].height && AllWellFormed(tables)
    ensures PrefixHeight(tables, j) + i < |Cells(ConcatPrefix(tables, k), c)|
    ensures Cells(ConcatPrefix(tables, k), c)[PrefixHeight(tables, j) + i] == Cells(tables[j], c)[i]
  {
    ConcatPrefixCells(tables, k, c);
    ColumnPrefixAt(tables, k, j, c, i);
  }

  /**
   * Reads the sheets one by one, appends each to the accumulator and rewrites
   * the output after every step. With no sheets nothing is written.
   */
  method ConsolidateSheets(tables: seq<DataFrame>) returns (writes: seq<DataFrame>)
    ensures |writes| == |tables|
    ensures forall k :: 0 <= k < |writes| ==> writes[k] == ConcatPrefix(tables, k + 1)
    ensures tables != [] ==> writes[|writes| - 1] == ConcatAll(tables)
  {
    if tables == [] {
      return [];
    }
    var accumulated := Empty;
    writes := [];
    var k := 0;
    while k < |tables|
      invariant 0 <= k <= |tables|
      invariant accumulated == ConcatPrefix(tables, k)
      invariant |writes| == k
      invariant forall j :: 0 <= j < k ==> writes[j] == ConcatPrefix(tables, j + 1)
    {
      assert ConcatPrefix(tables, k + 1) == Concat(ConcatPrefix(tables, k), tables[k]);
      accumulated := Concat(accumulated, tables[k]);
      writes := writes + [accumulated];
      k := k + 1;
    }
  }

  /** The first write holds the first sheet unchanged. */
  lemma FirstWriteIsFirstSheet(tables: seq<DataFrame>)
    requires tables != [] && WellFormed(tables[0])
    ensures ConcatPrefix(tables, 1) == tables[0]
  {
    ConcatEmptyLeft(tables[0]);
  }

  /** The final workbook: well-formed, as many rows as all sheets, the union
      of their columns, and each column every sheet's column in turn. */
  lemma ConsolidatedShape(tables: seq<DataFrame>, c: string)
    ensures ConcatAll(tables).height == SumHeights(tables)
    ensures c in ConcatAll(tables).columns <==> HasColumn(tables, c)
    ensures AllWellFormed(tables) ==> WellFormed(ConcatAll(tables))
    ensures AllWellFormed(tables) ==> Cells(ConcatAll(tables), c) == ColumnPrefix(tables, |tables|, c)
  {
    ConcatPrefixHeight(tables, |tables|);
    ConcatPrefixColumns(tables, |tables|, c);
    if AllWellFormed(tables) {
      ConcatPrefixWellFormed(tables, |tables|);
      ConcatPrefixCells(tables, |tables|, c);
    }
  }
}

=== FILE: Export.dfy ===
/**
 * The per-project sheet (`exportar_xlsx`): type coercion of the flattened
 * activities, resolution of the project identifier, the two leading columns
 * and the sheet's file name.
 */
module Export {
  import opened Wrappers
  import opened Json
  import opened Names
  import opened Frame

  /** The target type of a column. */
  datatype Kind = AsText | AsFloat | AsInt

  /** The fixed column-to-type mapping, in the order the conversion visits it. */
  const TypeMap: seq<(string, Kind)> := [
    ("activity_level", AsText),
    ("baseline_linked_cost", AsFloat),
    ("categorization", AsText),
    ("critical_path", AsText),
    ("delay_reasons", AsText),
    ("duration", AsFloat),
    ("floor", AsText),
    ("id", AsInt),
    ("last_measurement_base", AsFloat),
    ("last_measurement_expected", AsFloat),
    ("last_measurement_realized", AsFloat),
    ("last_measurement_unit_progress", AsFloat),
    ("linked_cost", AsFloat),
    ("material_resources", AsText),
    ("part_counter", AsText),
    ("physical_progress_percentage_base", AsFloat),
    ("physical_progress_percentage_expected", AsFloat),
    ("physical_progress_percentage_realized", AsFloat),
    ("physical_progress_unit_amount", AsFloat),
    ("physical_progress_unit_base", AsFloat),
    ("physical_progress_unit_expected", AsFloat),
    ("physical_progress_unit_realized", AsFloat),
    ("physical_progress_unit_realized_description", AsText),
    ("physical_progress_unit_remainder", AsFloat),
    ("predecessors", AsText),
    ("real_date_duration", AsText),
    ("real_date_end_at", AsText),
    ("replication_group", AsText),
    ("responsible", AsText),
    ("service", AsText),
    ("service_position", AsInt),
    ("successors", AsText),
    ("unit", AsText)
  ]

  /** The columns read as timestamps. */
  const DateColumns: seq<string> := [
    "baseline_step_end",
    "baseline_step_start",
    "end_date",
    "first_measured_in",
    "last_measured_in",
    "last_measurement_date",
    "real_date_start_at",
    "reference_date",
    "start_date",
    "unit_reference_date"
  ]

  predicate IsMapped(c: string) {
    MappedIn(TypeMap, c)
  }

  /** The mapping is a dictionary: no column is listed twice, and no mapped
      column is also a date column. */
  lemma TypeMapWellFormed()
    ensures DistinctNames(TypeMap) && Distinct(DateColumns)
    ensures forall c :: c in DateColumns ==> !IsMapped(c)
  {
    TypeMapDistinct();
    DateColumnsDistinct();
    ListsDisjoint();
  }

  lemma TypeMapDistinct()
    ensures forall i, j :: 0 <= i < j < |TypeMap| ==> TypeMap[i].0 != TypeMap[j].0
  {}
  lemma DateColumnsDistinct() ensures Distinct(DateColumns) {}
  lemma ListsDisjoint()
    ensures forall i, j :: 0 <= i < |TypeMap| && 0 <= j < |DateColumns| ==> TypeMap[i].0 != DateColumns[j]
  {}

  /** What `pd.to_numeric(..., errors='coerce')` makes of one cell: a number,
      NaN for text that is not a number, or a `TypeError` for a value it cannot
      handle at all. */
  datatype Numeric = Number(x: real) | NotANumber | Invalid

  /** The per-cell conversions of pandas, left abstract: numeric parsing,
      `astype(str)` and `to_datetime(..., errors='coerce', utc=True)` followed
      by dropping the time zone (a naive UTC instant, or NaT). */
  datatype Parsers = Parsers(toNumber: Cell -> Numeric, toText: Cell -> string, toDate: Cell -> Option<int>)

  predicate IsIntegral(x: real) {
    x.Floor as real == x
  }

  /** A parsed cell makes the conversion to `kind` raise: `to_numeric` cannot
      handle it, or it is a non-integral number headed for `Int64`. */
  predicate Raises(kind: Kind, n: Numeric) {
    n.Invalid? || (kind == AsInt && n.Number? && !IsIntegral(n.x))
  }

  /** The float cell of a parsed number: the number, or missing. */
  function FloatCell(n: Numeric): Cell {
    if n.Number? then Float(n.x) else Missing
  }

  /** The `Int64` cell of a parsed integral number: the integer, or missing. */
  function IntCell(n: Numeric): Cell {
    if n.Number? then Int(n.x.Floor) else Missing
  }

  /**
   * Converting one column to its mapped type: `None` when pandas raises —
   * a value `to_numeric` cannot handle, or a non-integral number cast to
   * `Int64`.
   */
  function ConvertColumn(kind: Kind, cells: seq<Cell>, p: Parsers): (r: Option<seq<Cell>>)
    ensures r.Some? ==> |r.value| == |cells|
    ensures kind == AsText ==> r.Some? && forall i :: 0 <= i < |cells| ==> r.value[i] == Text(p.toText(cells[i]))
    ensures kind != AsText ==>
              (r.None? <==> exists i :: 0 <= i < |cells| && Raises(kind, p.toNumber(cells[i])))
    ensures kind == AsFloat && r.Some? ==>
              forall i :: 0 <= i < |cells| ==>
                (r.value[i].Float? || r.value[i] == Missing)
                && (r.value[i].Float? <==> p.toNumber(cells[i]).Number?)
                && (r.value[i].Float? ==> r.value[i].x == p.toNumber(cells[i]).x)
    ensures kind == AsInt && r.Some? ==>
              forall i :: 0 <= i < |cells| ==>
                (r.value[i].Int? || r.value[i] == Missing)
                && (r.value[i].Int? <==> p.toNumber(cells[i]).Number?)
                && (r.value[i].Int? ==> r.value[i].i as real == p.toNumber(cells[i]).x)
  {
    match kind
    case AsText => Some(seq(|cells|, i requires 0 <= i < |cells| => Text(p.toText(cells[i]))))
    case AsFloat =>
      if exists i :: 0 <= i < |cells| && Raises(kind, p.toNumber(cells[i])) then None
      else Some(seq(|cells|, i requires 0 <= i < |cells| => FloatCell(p.toNumber(cells[i]))))
    case AsInt =>
      if exists i :: 0 <= i < |cells| && Raises(kind, p.toNumber(cells[i])) then None
      else Some(seq(|cells|, i requires 0 <= i < |cells| => IntCell(p.toNumber(cells[i]))))
  }

  /** A date column: each cell a naive UTC instant, or missing. */
  function ConvertDates(cells: seq<Cell>, p: Parsers): (r: seq<Cell>)
    ensures |r| == |cells|
    ensures forall i :: 0 <= i < |cells| ==>
              (r[i].Stamp? <==> p.toDate(cells[i]).Some?) && (r[i].Stamp? || r[i] == Missing)
              && (r[i].Stamp? ==> r[i] == Stamp(p.toDate(cells[i]).value))
  {
    seq(|cells|, i requires 0 <= i < |cells| =>
      match p.toDate(cells[i]) case Some(t) => Stamp(t) case None => Missing)
  }

  /** No column name is listed twice. */
  ghost predicate DistinctNames(types: seq<(string, Kind)>) {
    forall i, j :: 0 <= i < j < |types| ==> types[i].0 != types[j].0
  }

  predicate MappedIn(types: seq<(string, Kind)>, c: string) {
    exists i :: 0 <= i < |types| && types[i].0 == c
  }

  /**
   * The type loop: each listed column the table has is replaced by its
   * converted cells, in list order, until a conversion raises. `stopped` is
   * the index of the entry that raised, or `|types|` when none did.
   */
  method ConvertMapped(df0: DataFrame, types: seq<(string, Kind)>, p: Parsers) returns (df: DataFrame, stopped: nat)
    requires WellFormed(df0) && DistinctNames(types)
    ensures WellFormed(df)
    ensures df.columns == df0.columns && df.height == df0.height
    ensures stopped <= |types|
    ensures forall i :: 0 <= i < stopped && types[i].0 in df0.data ==>
              ConvertColumn(types[i].1, df0.data[types[i].0], p) == Some(df.data[types[i].0])
    ensures stopped < |types| ==>
              types[stopped].0 in df0.data && ConvertColumn(types[stopped].1, df0.data[types[stopped].0], p).None?
    ensures forall i :: stopped <= i < |types| && types[i].0 in df0.data ==>
              df.data[types[i].0] == df0.data[types[i].0]
    ensures forall c :: c in df0.data && !MappedIn(types, c) ==> df.data[c] == df0.data[c]
  {
    df := df0;
    var i := 0;
    while i < |types|
      invariant 0 <= i <= |types|
      invariant WellFormed(df)
      invariant df.columns == df0.columns && df.height == df0.height
      invariant forall k :: 0 <= k < i && types[k].0 in df0.data ==>
                  ConvertColumn(types[k].1, df0.data[types[k].0], p) == Some(df.data[types[k].0])
      invariant forall k :: i <= k < |types| && types[k].0 in df0.data ==>
                  df.data[types[k].0] == df0.data[types[k].0]
      invariant forall c :: c in df0.data && !MappedIn(types, c) ==> df.data[c] == df0.data[c]
    {
      var (column, kind) := types[i];
      if column !in df.data {
        i := i + 1;
        continue;
      }
      var converted := ConvertColumn(kind, df.data[column], p);
      if converted.None? {
        return df, i;
      }
      df := SetColumn(df, column, converted.value);
      i := i + 1;
    }
    stopped := |types|;
  }

  /** The date loop: each listed column the table has is parsed as timestamps. */
  method ConvertDateColumns(df0: DataFrame, dates: seq<string>, p: Parsers) returns (df: DataFrame)
    requires WellFormed(df0) && Distinct(dates)
    ensures WellFormed(df)
    ensures df.columns == df0.columns && df.height == df0.height
    ensures forall c :: c in df0.data ==>
              df.data[c] == if c in dates then ConvertDates(df0.data[c], p) else df0.data[c]
  {
    df := df0;
    var j := 0;
    while j < |dates|
      invariant 0 <= j <= |dates|
      invariant WellFormed(df)
      invariant df.columns == df0.columns && df.height == df0.height
      invariant forall c :: c in df0.data ==>
                  df.data[c] == if c in dates[..j] then ConvertDates(df0.data[c], p) else df0.data[c]
    {
      var column := dates[j];
      assert column !in dates[..j];
      assert dates[..j + 1] == dates[..j] + [column];
      if column in df.data {
        ghost var before := df;
        df := SetColumn(df, column, ConvertDates(df.data[column], p));
        forall c | c in df0.data
          ensures df.data[c] == if c in dates[..j + 1] then ConvertDates(df0.data[c], p) else df0.data[c]
        {
          if c != column {
            assert df.data[c] == before.data[c];
          }
        }
      }
      j := j + 1;
    }
    assert dates[..j] == dates;
  }

  /**
   * Table `df` holds the columns of `df0` as the conversion block leaves
   * them when it stops at entry `stopped` of `TypeMap` (`|TypeMap|` when no
   * conversion raised).
   */
  ghost predicate Converted(df0: DataFrame, df: DataFrame, p: Parsers, stopped: nat) {
    && stopped <= |TypeMap|
    && (forall i :: 0 <= i < stopped && TypeMap[i].0 in df0.data ==>
          TypeMap[i].0 in df.data && ConvertColumn(TypeMap[i].1, df0.data[TypeMap[i].0], p) == Some(df.data[TypeMap[i].0]))
    && (stopped < |TypeMap| ==>
          TypeMap[stopped].0 in df0.data && ConvertColumn(TypeMap[stopped].1, df0.data[TypeMap[stopped].0], p).None?)
    && (forall i :: stopped <= i < |TypeMap| && TypeMap[i].0 in df0.data ==>
          TypeMap[i].0 in df.data && df.data[TypeMap[i].0] == df0.data[TypeMap[i].0])
    && (forall c :: c in DateColumns && c in df0.data ==>
          c in df.data && df.data[c] == if stopped < |TypeMap| then df0.data[c] else ConvertDates(df0.data[c], p))
  }

  /**
   * The conversion block of the export: the type loop over `TypeMap`, then
   * the date loop over `DateColumns`. An exception stops the block where it
   * happens (it is caught and the export goes on with the columns converted
   * so far); the date columns are then left as they were. Columns outside
   * both lists are never touched.
   */
  method CoerceTypes(df0: DataFrame, p: Parsers) returns (df: DataFrame, stopped: nat)
    requires WellFormed(df0)
    ensures WellFormed(df)
    ensures df.columns == df0.columns && df.height == df0.height
    ensures stopped <= |TypeMap|
    ensures forall i :: 0 <= i < stopped && TypeMap[i].0 in df0.data ==>
              ConvertColumn(TypeMap[i].1, df0.data[TypeMap[i].0], p) == Some(df.data[TypeMap[i].0])
    ensures stopped < |TypeMap| ==>
              TypeMap[stopped].0 in df0.data && ConvertColumn(TypeMap[stopped].1, df0.data[TypeMap[stopped].0], p).None?
    ensures forall i :: stopped <= i < |TypeMap| && TypeMap[i].0 in df0.data ==>
              df.data[TypeMap[i].0] == df0.data[TypeMap[i].0]
    ensures forall c :: c in DateColumns && c in df0.data ==>
              df.data[c] == if stopped < |TypeMap| then df0.data[c] else ConvertDates(df0.data[c], p)
    ensures forall c :: c in df0.data && !IsMapped(c) && c !in DateColumns ==> df.data[c] == df0.data[c]
    ensures Converted(df0, df, p, stopped)
  {
    TypeMapWellFormed();
    var converted;
    converted, stopped := ConvertMapped(df0, TypeMap, p);
    if stopped < |TypeMap| {
      return converted, stopped;
    }
    df := ConvertDateColumns(converted, DateColumns, p);
  }

  /** Python's `a or b or ...`: the first truthy operand, else the last one. */
  function OrChain(operands: seq<Json>): Json
    requires operands != []
  {
    if |operands| == 1 || Truthy(operands[0]) then operands[0] else OrChain(operands[1..])
  }

  /** An `or` chain yields its first truthy operand, and the last operand
      (truthy or not) when no earlier one is truthy. */
  lemma {:induction false} OrChainFirstTruthy(operands: seq<Json>, k: nat)
    requires k < |operands|
    requires forall i :: 0 <= i < k ==> !Truthy(operands[i])
    requires Truthy(operands[k]) || k == |operands| - 1
    ensures OrChain(operands) == operands[k]
  {
    if k > 0 {
      assert !Truthy(operands[0]);
      OrChainFirstTruthy(operands[1..], k - 1);
    }
  }

  datatype ExportError =
    | MissingIdentifier        // the ValueError raised when the identifier is None
    | NoGetMethod(value: Json) // AttributeError: a truthy "project" that is not a dict
    | InsertFailed(cause: FrameError)

  /** `(data.get("project") or {}).get("id")`. */
  function NestedProjectId(doc: map<string, Json>): (r: Result<Json, ExportError>)
    ensures !Truthy(Get(doc, "project")) ==> r == Ok(JNull)
    ensures r.Err? <==> Truthy(Get(doc, "project")) && !Get(doc, "project").JObj?
    ensures r.Ok? && r.value != JNull ==>
              "project" in doc && doc["project"].JObj? && "id" in doc["project"].fields
              && r.value == doc["project"].fields["id"]
  {
    var project := Get(doc, "project");
    if !Truthy(project) then Ok(JNull)
    else match project
      case JObj(fields) => Ok(Get(fields, "id"))
      case _ => Err(NoGetMethod(project))
  }

  /**
   * The project identifier: the explicit parameter, else the payload's
   * `project_id`, else its `projectId`, else its `project.id`, with Python's
   * `or` (so `0` and `""` fall through). Only a final `None` is refused.
   */
  function ResolveIdentifier(projectId: Json, doc: map<string, Json>): (r: Result<Json, ExportError>)
    ensures r.Ok? ==> r.value != JNull
    ensures r.Err? && r.error == MissingIdentifier ==> NestedProjectId(doc) == Ok(JNull)
    ensures r.Err? ==> !Truthy(projectId) && !Truthy(Get(doc, "project_id")) && !Truthy(Get(doc, "projectId"))
    ensures Truthy(projectId) ==> r == Ok(projectId)
    ensures !Truthy(projectId) && Truthy(Get(doc, "project_id")) ==> r == Ok(Get(doc, "project_id"))
    ensures !Truthy(projectId) && !Truthy(Get(doc, "project_id")) && Truthy(Get(doc, "projectId")) ==>
              r == Ok(Get(doc, "projectId"))
  {
    if Truthy(projectId) then Ok(projectId)
    else if Truthy(Get(doc, "project_id")) then Ok(Get(doc, "project_id"))
    else if Truthy(Get(doc, "projectId")) then Ok(Get(doc, "projectId"))
    else match NestedProjectId(doc)
      case Err(e) => Err(e)
      case Ok(last) => if last == JNull then Err(MissingIdentifier) else Ok(last)
  }

  /** The identifier is Python's `or` chain over the four candidates, refused
      only when the chain yields `None`. */
  lemma ResolveIsOrChain(projectId: Json, doc: map<string, Json>)
    requires NestedProjectId(doc).Ok?
    ensures var chain := OrChain([projectId, Get(doc, "project_id"), Get(doc, "projectId"), NestedProjectId(doc).value]);
            ResolveIdentifier(projectId, doc) == if chain == JNull then Err(MissingIdentifier) else Ok(chain)
  {
    var operands := [projectId, Get(doc, "project_id"), Get(doc, "projectId"), NestedProjectId(doc).value];
    if Truthy(projectId) {
      OrChainFirstTruthy(operands, 0);
    } else if Truthy(Get(doc, "project_id")) {
      OrChainFirstTruthy(operands, 1);
    } else if Truthy(Get(doc, "projectId")) {
      OrChainFirstTruthy(operands, 2);
    } else {
      OrChainFirstTruthy(operands, 3);
    }
  }

  /** The decoded response body, with the activity table `json_normalize`
      flattens out of it. */
  datatype Payload = Payload(doc: map<string, Json>, activities: Table)

  /** What the export writes, and where. */
  datatype Sheet = Sheet(path: string, table: Table)

  /** The columns the export puts in front of the activities. */
  function LeadColumns(projectName: Json): seq<string> {
    if projectName == JNull then ["project_id"] else ["project_id", "project_name"]
  }

  /** `df.insert(0, "project_id", id)`. */
  function InsertProjectId(df: DataFrame, id: Json): (r: Result<DataFrame, FrameError>)
    requires WellFormed(df)
    ensures r.Ok? <==> "project_id" !in df.columns
    ensures r.Ok? ==>
              && WellFormed(r.value)
              && r.value.height == df.height
              && r.value.columns == ["project_id"] + df.columns
              && "project_id" in r.value.data && r.value.data["project_id"] == Repeat(Raw(id), df.height)
              && (forall c :: c in df.data ==> c in r.value.data && r.value.data[c] == df.data[c])
  {
    var r := Insert(df, 0, "project_id", Raw(id));
    assert r.Ok? ==> r.value.columns == ["project_id"] + df.columns;
    r
  }

  /** `df.insert(1, "project_name", str(name))` behind the identifier column. */
  function InsertProjectName(df: DataFrame, projectName: Json): (r: Result<DataFrame, FrameError>)
    requires WellFormed(df) && |df.columns| >= 1
    ensures r.Ok? <==> "project_name" !in df.columns
    ensures r.Ok? ==>
              && WellFormed(r.value)
              && r.value.height == df.height
              && r.value.columns == df.columns[..1] + ["project_name"] + df.columns[1..]
              && "project_name" in r.value.data
              && r.value.data["project_name"] == Repeat(Text(Str(projectName)), df.height)
              && (forall c :: c in df.data ==> c in r.value.data && r.value.data[c] == df.data[c])
  {
    Insert(df, 1, "project_name", Text(Str(projectName)))
  }

  /**
   * `df.insert(0, "project_id", id)` and, when a name is given,
   * `df.insert(1, "project_name", str(name))`: the new columns go in front,
   * filled with the same value in every row, and the others keep their cells.
   */
  function AddLeadColumns(df: DataFrame, id: Json, projectName: Json): (r: Result<DataFrame, FrameError>)
    requires WellFormed(df)
    ensures r.Ok? <==> "project_id" !in df.columns && (projectName != JNull ==> "project_name" !in df.columns)
    ensures r.Ok? ==>
              && WellFormed(r.value)
              && r.value.height == df.height
              && r.value.columns == LeadColumns(projectName) + df.columns
              && "project_id" in r.value.data && r.value.data["project_id"] == Repeat(Raw(id), df.height)
              && (projectName != JNull ==>
                    "project_name" in r.value.data
                    && r.value.data["project_name"] == Repeat(Text(Str(projectName)), df.height))
              && (forall c :: c in df.data ==> c in r.value.data && r.value.data[c] == df.data[c])
  {
    match InsertProjectId(df, id)
      case Err(e) => Err(e)
      case Ok(withId) =>
        if projectName == JNull then Ok(withId)
        else
          NameBehindId(df.columns, withId.columns);
          match InsertProjectName(withId, projectName)
            case Err(e) => Err(e)
            case Ok(withName) => Ok(withName)
  }

  /** Inserting `project_name` at position 1 behind a leading `project_id`. */
  lemma NameBehindId(columns: seq<string>, withId: seq<string>)
    requires withId == ["project_id"] + columns
    ensures "project_name" in withId <==> "project_name" in columns
    ensures withId[..1] + ["project_name"] + withId[1..] == ["project_id", "project_name"] + columns
  {
    assert withId[..1] == ["project_id"] && withId[1..] == columns;
  }

  /**
   * What an exported sheet holds: every activity row and column, behind a
   * leading `project_id` column holding the identifier in every row and, when
   * a name is given, a `project_name` column; the columns outside both type
   * lists keep their cells.
   */
  ghost predicate SheetHolds(activities: DataFrame, id: Json, projectName: Json, sheet: DataFrame) {
    && WellFormed(sheet)
    && sheet.height == activities.height
    && sheet.columns == LeadColumns(projectName) + activities.columns
    && "project_id" in sheet.data && sheet.data["project_id"] == Repeat(Raw(id), sheet.height)
    && (projectName != JNull ==>
          "project_name" in sheet.data
          && sheet.data["project_name"] == Repeat(Text(Str(projectName)), sheet.height))
    && (forall c :: c in activities.data && !IsMapped(c) && c !in DateColumns ==>
          c in sheet.data && sheet.data[c] == activities.data[c])
  }

  /**
   * Exports one project's activities to `<outDir>/activities_project_<id>.xlsx`,
   * `id` being the resolved identifier. It fails when the identifier cannot be
   * resolved or a leading column clashes with an activity column.
   */
  method ExportActivities(payload: Payload, outDir: string, projectId: Json, projectName: Json, p: Parsers)
    returns (r: Result<Sheet, ExportError>, stopped: nat)
    ensures ResolveIdentifier(projectId, payload.doc).Err? ==> r == Err(ResolveIdentifier(projectId, payload.doc).error)
    ensures ResolveIdentifier(projectId, payload.doc).Ok? ==>
              (r.Ok? <==> "project_id" !in payload.activities.columns
                          && (projectName != JNull ==> "project_name" !in payload.activities.columns))
    ensures r.Ok? ==>
              var id := ResolveIdentifier(projectId, payload.doc).value;
              && r.value.path == Join(outDir, SheetFileName(id))
              && SheetHolds(payload.activities, id, projectName, r.value.table)
              && Converted(payload.activities, r.value.table, p, stopped)
  {
    var df;
    df, stopped := CoerceTypes(payload.activities, p);
    var resolved := ResolveIdentifier(projectId, payload.doc);
    if resolved.Err? {
      return Err(resolved.error), stopped;
    }
    var id := resolved.value;
    var lead := AddLeadColumns(df, id, projectName);
    if lead.Err? {
      return Err(InsertFailed(lead.error)), stopped;
    }
    r := Ok(Sheet(Join(outDir, SheetFileName(id)), lead.value));
  }
}

=== FILE: Fetch.dfy ===
/**
 * The schedule download with retries (`busca_activies`). The HTTP call is an
 * oracle `respond` giving the outcome of attempt 1, 2, ...; the sleeps between
 * attempts and the one file write are returned as a trace of events.
 */
module Fetch {
  import opened Wrappers

  /** The outcome of one GET: an HTTP answer, or a transport exception
      (`requests.RequestException`: connection error, timeout). */
  datatype Response<B> = Answered(status: int, body: B) | RequestFailed

  predicate Succeeded<B>(r: Response<B>) {
    r.Answered? && r.status == 200
  }

  /** What the download does that can be observed from outside. */
  datatype Event<B> =
    | Request(attempt: nat)
    | Sleep(seconds: int)
    | WriteRaw(path: string, body: B)

  predicate IsRequest<B>(e: Event<B>) { e.Request? }
  predicate IsSleep<B>(e: Event<B>) { e.Sleep? }
  predicate IsWrite<B>(e: Event<B>) { e.WriteRaw? }

  /** The number of events of one kind. */
  function Count<B>(events: seq<Event<B>>, kind: Event<B> -> bool): nat {
    if events == [] then 0 else (if kind(events[0]) then 1 else 0) + Count(events[1..], kind)
  }

  lemma CountCons<B>(e: Event<B>, rest: seq<Event<B>>, kind: Event<B> -> bool)
    ensures Count([e] + rest, kind) == (if kind(e) then 1 else 0) + Count(rest, kind)
  {
    assert ([e] + rest)[1..] == rest;
  }

  /** The pause after failed attempt `attempt`: only when another attempt
      follows and the delay is positive. */
  function Pause<B>(attempt: nat, maxRetries: int, retryDelay: int): seq<Event<B>> {
    if attempt < maxRetries && retryDelay > 0 then [Sleep(retryDelay)] else []
  }

  lemma CountPause<B>(attempt: nat, maxRetries: int, retryDelay: int, rest: seq<Event<B>>)
    ensures Count(Pause(attempt, maxRetries, retryDelay) + rest, IsRequest) == Count(rest, IsRequest)
    ensures Count(Pause(attempt, maxRetries, retryDelay) + rest, IsWrite) == Count(rest, IsWrite)
    ensures Count(Pause(attempt, maxRetries, retryDelay) + rest, IsSleep)
            == (if attempt < maxRetries && retryDelay > 0 then 1 else 0) + Count(rest, IsSleep)
  {
    var pause: seq<Event<B>> := Pause(attempt, maxRetries, retryDelay);
    if pause == [] {
      assert pause + rest == rest;
    } else {
      CountCons(Sleep(retryDelay), rest, IsRequest);
      CountCons(Sleep(retryDelay), rest, IsWrite);
      CountCons(Sleep(retryDelay), rest, IsSleep);
    }
  }

  /** Reference definition: what the attempts after the first `t` return. */
  function Outcome<B>(t: nat, maxRetries: int, filepath: string, respond: nat -> Response<B>): Option<string>
    decreases maxRetries - t
  {
    if t >= maxRetries then None
    else if Succeeded(respond(t + 1)) then Some(filepath)
    else Outcome(t + 1, maxRetries, filepath, respond)
  }

  /** Reference definition: what the attempts after the first `t` do. */
  function Trace<B>(t: nat, maxRetries: int, retryDelay: int, filepath: string,
                    respond: nat -> Response<B>): seq<Event<B>>
    decreases maxRetries - t
  {
    if t >= maxRetries then []
    else if Succeeded(respond(t + 1)) then [Request(t + 1), WriteRaw(filepath, respond(t + 1).body)]
    else [Request(t + 1)] + (Pause(t + 1, maxRetries, retryDelay) + Trace(t + 1, maxRetries, retryDelay, filepath, respond))
  }

  /**
   * Downloads a project's schedule: up to `maxRetries` attempts, a pause of
   * `retryDelay` seconds after each failed attempt that is not the last, and
   * on the first 200 answer the body written to `filepath`, which is returned.
   */
  method FetchSchedule<B>(maxRetries: int, retryDelay: int, filepath: string, respond: nat -> Response<B>)
    returns (result: Option<string>, events: seq<Event<B>>)
    ensures result == Outcome(0, maxRetries, filepath, respond)
    ensures events == Trace(0, maxRetries, retryDelay, filepath, respond)
  {
    var attempt: nat := 0;
    events := [];
    while attempt < maxRetries
      invariant events + Trace(attempt, maxRetries, retryDelay, filepath, respond)
                == Trace(0, maxRetries, retryDelay, filepath, respond)
      invariant Outcome(attempt, maxRetries, filepath, respond) == Outcome(0, maxRetries, filepath, respond)
      decreases maxRetries - attempt
    {
      var response := respond(attempt + 1);
      TraceStep(attempt, maxRetries, retryDelay, filepath, respond);
      if Succeeded(response) {
        events := events + [Request(attempt + 1), WriteRaw(filepath, response.body)];
        return Some(filepath), events;
      }
      var step := [Request(attempt + 1)];
      if attempt + 1 < maxRetries && retryDelay > 0 {
        step := step + [Sleep(retryDelay)];
      }
      assert step == [Request(attempt + 1)] + Pause(attempt + 1, maxRetries, retryDelay);
      AppendAssoc(events, step, Trace(attempt + 1, maxRetries, retryDelay, filepath, respond));
      events := events + step;
      attempt := attempt + 1;
    }
    assert events + [] == events;
    result := None;
  }

  /** One attempt of the reference definitions: a 200 answer ends the
      download with the write, any other outcome is followed by the pause and
      the remaining attempts. */
  lemma TraceStep<B>(t: nat, maxRetries: int, retryDelay: int, filepath: string, respond: nat -> Response<B>)
    requires t < maxRetries
    ensures Succeeded(respond(t + 1)) ==>
              && Trace(t, maxRetries, retryDelay, filepath, respond) == [Request(t + 1), WriteRaw(filepath, respond(t + 1).body)]
              && Outcome(t, maxRetries, filepath, respond) == Some(filepath)
    ensures !Succeeded(respond(t + 1)) ==>
              && Trace(t, maxRetries, retryDelay, filepath, respond)
                 == ([Request(t + 1)] + Pause(t + 1, maxRetries, retryDelay)) + Trace(t + 1, maxRetries, retryDelay, filepath, respond)
              && Outcome(t, maxRetries, filepath, respond) == Outcome(t + 1, maxRetries, filepath, respond)
  {
    if !Succeeded(respond(t + 1)) {
      AppendAssoc([Request(t + 1)], Pause(t + 1, maxRetries, retryDelay), Trace(t + 1, maxRetries, retryDelay, filepath, respond));
    }
  }

  lemma AppendAssoc<T>(a: seq<T>, b: seq<T>, c: seq<T>)
    ensures (a + b) + c == a + (b + c)
  {
  }

  /** A download that returns a path has written the body there last. */
  lemma {:induction false} FetchedWritesLast<B>(t: nat, maxRetries: int, retryDelay: int, filepath: string,
                                                respond: nat -> Response<B>)
    ensures var events := Trace(t, maxRetries, retryDelay, filepath, respond);
            Outcome(t, maxRetries, filepath, respond).Some? ==>
              |events| > 0 && events[|events| - 1].WriteRaw? && events[|events| - 1].path == filepath
    decreases maxRetries - t
  {
    if t < maxRetries && !Succeeded(respond(t + 1)) {
      FetchedWritesLast(t + 1, maxRetries, retryDelay, filepath, respond);
    }
  }

  /** Unfolds a failed attempt: one request, the pause, then the rest. */
  lemma FailedStep<B>(t: nat, maxRetries: int, retryDelay: int, filepath: string, respond: nat -> Response<B>,
                      kind: Event<B> -> bool)
    requires t < maxRetries && !Succeeded(respond(t + 1))
    ensures var rest := Trace(t + 1, maxRetries, retryDelay, filepath, respond);
            Count(Trace(t, maxRetries, retryDelay, filepath, respond), kind)
            == (if kind(Request(t + 1)) then 1 else 0) + Count(Pause(t + 1, maxRetries, retryDelay) + rest, kind)
  {
    var rest := Trace(t + 1, maxRetries, retryDelay, filepath, respond);
    CountCons(Request(t + 1), Pause(t + 1, maxRetries, retryDelay) + rest, kind);
  }

  /** `e` is the last of `events`. */
  ghost predicate EndsWith<B>(events: seq<Event<B>>, e: Event<B>) {
    |events| > 0 && events[|events| - 1] == e
  }

  lemma EndsWithPrepend<B>(front: seq<Event<B>>, rest: seq<Event<B>>, e: Event<B>)
    requires EndsWith(rest, e)
    ensures EndsWith(front + rest, e)
  {
    assert (front + rest)[|front + rest| - 1] == rest[|rest| - 1];
  }

  /** The first 200 answer comes at attempt `k`: the download returns the
      path fixed before the first attempt. */
  lemma {:induction false} SucceedsAtFrom<B>(t: nat, k: nat, maxRetries: int, retryDelay: int,
                                             filepath: string, respond: nat -> Response<B>)
    requires t < k <= maxRetries
    requires forall a :: t < a < k ==> !Succeeded(respond(a))
    requires Succeeded(respond(k))
    ensures Outcome(t, maxRetries, filepath, respond) == Some(filepath)
    decreases k - t
  {
    if t + 1 < k {
      SucceedsAtFrom(t + 1, k, maxRetries, retryDelay, filepath, respond);
    }
  }

  /** The first 200 answer comes at attempt `k`: its body is the last thing
      the download does, written to the fixed path. */
  lemma {:induction false} SucceedsWritesLast<B>(t: nat, k: nat, maxRetries: int, retryDelay: int,
                                                 filepath: string, respond: nat -> Response<B>)
    requires t < k <= maxRetries
    requires forall a :: t < a < k ==> !Succeeded(respond(a))
    requires Succeeded(respond(k))
    ensures EndsWith(Trace(t, maxRetries, retryDelay, filepath, respond), WriteRaw(filepath, respond(k).body))
    decreases k - t
  {
    var trace := Trace(t, maxRetries, retryDelay, filepath, respond);
    if t + 1 < k {
      var rest := Trace(t + 1, maxRetries, retryDelay, filepath, respond);
      var front: seq<Event<B>> := [Request(t + 1)] + Pause(t + 1, maxRetries, retryDelay);
      assert trace == front + rest;
      SucceedsWritesLast(t + 1, k, maxRetries, retryDelay, filepath, respond);
      EndsWithPrepend(front, rest, WriteRaw(filepath, respond(k).body));
    } else {
      assert trace == [Request(t + 1), WriteRaw(filepath, respond(k).body)];
    }
  }

  /**
   * The first 200 answer comes at attempt `k`: exactly `k - t` requests, one
   * pause per failed attempt when the delay is positive, and one write.
   */
  lemma {:induction false} SucceedsAtCounts<B>(t: nat, k: nat, maxRetries: int, retryDelay: int,
                                               filepath: string, respond: nat -> Response<B>)
    requires t < k <= maxRetries
    requires forall a :: t < a < k ==> !Succeeded(respond(a))
    requires Succeeded(respond(k))
    ensures Count(Trace(t, maxRetries, retryDelay, filepath, respond), IsRequest) == k - t
    ensures Count(Trace(t, maxRetries, retryDelay, filepath, respond), IsSleep)
            == if retryDelay > 0 then k - t - 1 else 0
    ensures Count(Trace(t, maxRetries, retryDelay, filepath, respond), IsWrite) == 1
    decreases k - t
  {
    if t + 1 == k {
      var write: Event<B> := WriteRaw(filepath, respond(k).body);
      assert Trace(t, maxRetries, retryDelay, filepath, respond) == [Request(k)] + [write];
      CountCons(write, [], IsRequest);
      CountCons(write, [], IsSleep);
      CountCons(write, [], IsWrite);
      CountCons(Request(k), [write], IsRequest);
      CountCons(Request(k), [write], IsSleep);
      CountCons(Request(k), [write], IsWrite);
    } else {
      SucceedsAtCounts(t + 1, k, maxRetries, retryDelay, filepath, respond);
      var rest := Trace(t + 1, maxRetries, retryDelay, filepath, respond);
      FailedStep(t, maxRetries, retryDelay, filepath, respond, IsRequest);
      FailedStep(t, maxRetries, retryDelay, filepath, respond, IsSleep);
      FailedStep(t, maxRetries, retryDelay, filepath, respond, IsWrite);
      CountPause(t + 1, maxRetries, retryDelay, rest);
    }
  }

  /**
   * Every attempt after the first `t` fails: nothing is returned, nothing is
   * written, all remaining attempts are made, there is one pause fewer than
   * attempts (none when the delay is not positive), and the trace ends with
   * the last request, never with a pause.
   */
  lemma {:induction false} ExhaustedFrom<B>(t: nat, maxRetries: int, retryDelay: int,
                                            filepath: string, respond: nat -> Response<B>)
    requires forall a :: t < a <= maxRetries ==> !Succeeded(respond(a))
    ensures Outcome(t, maxRetries, filepath, respond) == None
    ensures Count(Trace(t, maxRetries, retryDelay, filepath, respond), IsRequest)
            == if maxRetries > t then maxRetries - t else 0
    ensures Count(Trace(t, maxRetries, retryDelay, filepath, respond), IsSleep)
            == if maxRetries > t && retryDelay > 0 then maxRetries - t - 1 else 0
    ensures Count(Trace(t, maxRetries, retryDelay, filepath, respond), IsWrite) == 0
    ensures var events := Trace(t, maxRetries, retryDelay, filepath, respond);
            |events| > 0 ==> maxRetries > 0 && events[|events| - 1] == Request(maxRetries as nat)
    decreases maxRetries - t
  {
    if t < maxRetries {
      ExhaustedFrom(t + 1, maxRetries, retryDelay, filepath, respond);
      var events := Trace(t, maxRetries, retryDelay, filepath, respond);
      var rest := Trace(t + 1, maxRetries, retryDelay, filepath, respond);
      FailedStep(t, maxRetries, retryDelay, filepath, respond, IsRequest);
      FailedStep(t, maxRetries, retryDelay, filepath, respond, IsSleep);
      FailedStep(t, maxRetries, retryDelay, filepath, respond, IsWrite);
      CountPause(t + 1, maxRetries, retryDelay, rest);
      assert events == [Request(t + 1)] + (Pause(t + 1, maxRetries, retryDelay) + rest);
      if t + 1 == maxRetries {
        assert rest == [] && Pause<B>(t + 1, maxRetries, retryDelay) == [];
        assert events == [Request(t + 1)];
      } else {
        assert events[|events| - 1] == rest[|rest| - 1];
      }
    }
  }

  /**
   * The download returns a path exactly when some allowed attempt is answered
   * with 200, that path is the one fixed before the first attempt, and no more
   * than `maxRetries` requests are made (none when it is not positive).
   */
  lemma {:induction false} ResultFrom<B>(t: nat, maxRetries: int, retryDelay: int,
                                         filepath: string, respond: nat -> Response<B>)
    ensures Outcome(t, maxRetries, filepath, respond).Some?
            <==> exists a :: t < a <= maxRetries && Succeeded(respond(a))
    ensures Outcome(t, maxRetries, filepath, respond).Some? ==>
            Outcome(t, maxRetries, filepath, respond) == Some(filepath)
    ensures Count(Trace(t, maxRetries, retryDelay, filepath, respond), IsRequest)
            <= if maxRetries > t then maxRetries - t else 0
    decreases maxRetries - t
  {
    if t < maxRetries {
      ResultFrom(t + 1, maxRetries, retryDelay, filepath, respond);
      if !Succeeded(respond(t + 1)) {
        var rest := Trace(t + 1, maxRetries, retryDelay, filepath, respond);
        FailedStep(t, maxRetries, retryDelay, filepath, respond, IsRequest);
        CountPause(t + 1, maxRetries, retryDelay, rest);
        assert (exists a :: t < a <= maxRetries && Succeeded(respond(a)))
               ==> (exists a :: t + 1 < a <= maxRetries && Succeeded(respond(a)));
      } else {
        var write: Event<B> := WriteRaw(filepath, respond(t + 1).body);
        assert Trace(t, maxRetries, retryDelay, filepath, respond) == [Request(t + 1)] + [write];
        CountCons(write, [], IsRequest);
        CountCons(Request(t + 1), [write], IsRequest);
      }
    }
  }

  /** The pause at position `i` directly follows a failed attempt that was
      not the last allowed one, and lasts the configured positive delay. */
  predicate PauseJustified<B>(events: seq<Event<B>>, i: nat, maxRetries: int, retryDelay: int,
                              respond: nat -> Response<B>)
    requires i < |events|
  {
    && events[i].Sleep?
    && 0 < i
    && events[i - 1].Request?
    && events[i - 1].attempt < maxRetries
    && !Succeeded(respond(events[i - 1].attempt))
    && events[i].seconds == retryDelay
    && retryDelay > 0
  }

  predicate PausesJustified<B>(events: seq<Event<B>>, maxRetries: int, retryDelay: int,
                               respond: nat -> Response<B>)
  {
    forall i :: 0 <= i < |events| && events[i].Sleep? ==>
      PauseJustified(events, i, maxRetries, retryDelay, respond)
  }

  /** A pause is only ever taken after a failed attempt that was not the last. */
  lemma {:induction false} SleepsFollowFailures<B>(t: nat, maxRetries: int, retryDelay: int,
                                                   filepath: string, respond: nat -> Response<B>)
    ensures PausesJustified(Trace(t, maxRetries, retryDelay, filepath, respond),
                            maxRetries, retryDelay, respond)
    decreases maxRetries - t
  {
    if t < maxRetries && !Succeeded(respond(t + 1)) {
      SleepsFollowFailures(t + 1, maxRetries, retryDelay, filepath, respond);
      var events := Trace(t, maxRetries, retryDelay, filepath, respond);
      var pause: seq<Event<B>> := Pause(t + 1, maxRetries, retryDelay);
      var rest := Trace(t + 1, maxRetries, retryDelay, filepath, respond);
      var head := [Request(t + 1)] + pause;
      assert events == head + rest;
      forall i | 0 <= i < |events| && events[i].Sleep?
        ensures PauseJustified(events, i, maxRetries, retryDelay, respond)
      {
        if i >= |head| {
          var j := i - |head|;
          assert rest[j] == events[i];
          assert PauseJustified(rest, j, maxRetries, retryDelay, respond);
          assert events[i - 1] == rest[j - 1];
        } else {
          assert events[i] == head[i];
          assert i == 1 && pause == [Sleep(retryDelay)];
          assert events[0] == Request(t + 1);
        }
      }
    }
  }
}

=== FILE: Frame.dfy ===
/**
 * A pandas DataFrame as the pipeline uses it: an ordered list of distinct
 * column names, one column of cells per name, every column `height` long.
 */
module Frame {
  import opened Wrappers
  import opened Json

  /** One cell: as decoded from JSON, or after a conversion. `Missing` is
      pandas' NaN / NaT / NA. */
  datatype Cell =
    | Missing
    | Raw(v: Json)
    | Float(x: real)
    | Int(i: int)
    | Text(s: string)
    | Stamp(t: int)

  datatype DataFrame = DataFrame(columns: seq<string>, data: map<string, seq<Cell>>, height: nat)

  ghost predicate Distinct(xs: seq<string>) {
    forall i, j :: 0 <= i < j < |xs| ==> xs[i] != xs[j]
  }

  ghost predicate WellFormed(d: DataFrame) {
    && Distinct(d.columns)
    && (forall c :: c in d.data <==> c in d.columns)
    && (forall c :: c in d.data ==> |d.data[c]| == d.height)
  }

  /** A frame as pandas keeps it, the form in which frames are stored. */
  type Table = d: DataFrame | WellFormed(d) witness DataFrame([], map[], 0)

  /** `pd.DataFrame()`: no columns, no rows. */
  const Empty: DataFrame := DataFrame([], map[], 0)

  /** `n` copies of one cell: a column filled with a scalar. */
  function Repeat(value: Cell, n: nat): (r: seq<Cell>)
    ensures |r| == n
    ensures forall i :: 0 <= i < n ==> r[i] == value
  {
    if n == 0 then [] else [value] + Repeat(value, n - 1)
  }

  /** A column as `reindex` sees it: the column itself, or all missing when
      the table does not have it (or, in a frame pandas would not build, has
      it at the wrong length). */
  function Cells(t: DataFrame, c: string): (cells: seq<Cell>)
    ensures |cells| == t.height
    ensures WellFormed(t) && c in t.data ==> cells == t.data[c]
    ensures c !in t.data ==> forall i :: 0 <= i < t.height ==> cells[i] == Missing
  {
    if c in t.data && |t.data[c]| == t.height then t.data[c] else Repeat(Missing, t.height)
  }

  /** `df[c] = cells` for a column `c` the table already has. */
  function SetColumn(t: DataFrame, c: string, cells: seq<Cell>): (r: DataFrame)
    requires c in t.data
    ensures r.columns == t.columns && r.height == t.height
    ensures r.data == t.data[c := cells]
    ensures WellFormed(t) && |cells| == t.height ==> WellFormed(r)
  {
    DataFrame(t.columns, t.data[c := cells], t.height)
  }

  datatype FrameError = DuplicateColumn(name: string)

  lemma DistinctInsert(xs: seq<string>, pos: nat, name: string)
    requires Distinct(xs) && name !in xs && pos <= |xs|
    ensures Distinct(xs[..pos] + [name] + xs[pos..])
    ensures forall c :: c in xs[..pos] + [name] + xs[pos..] <==> c in xs || c == name
  {
    var ys := xs[..pos] + [name] + xs[pos..];
    forall i, j | 0 <= i < j < |ys| ensures ys[i] != ys[j] {
      if j < pos {
        assert ys[i] == xs[i] && ys[j] == xs[j];
      } else if j == pos {
        assert ys[j] == name && ys[i] == xs[i];
      } else if i < pos {
        assert ys[i] == xs[i] && ys[j] == xs[j - 1];
      } else if i == pos {
        assert ys[i] == name && ys[j] == xs[j - 1];
      } else {
        assert ys[i] == xs[i - 1] && ys[j] == xs[j - 1];
      }
    }
    assert xs == xs[..pos] + xs[pos..];
  }

  /**
   * `df.insert(pos, name, value)`: a new column at position `pos`, holding
   * `value` in every row. pandas refuses a name the table already has.
   */
  function Insert(t: DataFrame, pos: nat, name: string, value: Cell): (r: Result<DataFrame, FrameError>)
    requires WellFormed(t) && pos <= |t.columns|
    ensures r.Err? <==> name in t.columns
    ensures r.Err? ==> r.error == DuplicateColumn(name)
    ensures r.Ok? ==> && WellFormed(r.value)
                      && r.value.columns == t.columns[..pos] + [name] + t.columns[pos..]
                      && r.value.height == t.height
                      && (forall c :: c in t.data ==> c in r.value.data && r.value.data[c] == t.data[c])
                      && name in r.value.data && r.value.data[name] == Repeat(value, t.height)
  {
    if name in t.columns then Err(DuplicateColumn(name))
    else
      DistinctInsert(t.columns, pos, name);
      Ok(DataFrame(t.columns[..pos] + [name] + t.columns[pos..],
                   t.data[name := Repeat(value, t.height)], t.height))
  }

  /**
   * The columns of a concatenation: those of `xs` in order, then those of
   * `ys` that `xs` lacks, in their order of appearance.
   */
  function UnionColumns(xs: seq<string>, ys: seq<string>): (r: seq<string>)
    ensures Distinct(xs) ==> Distinct(r)
    ensures |xs| <= |r| && r[..|xs|] == xs
    ensures forall c :: c in r <==> c in xs || c in ys
    decreases |ys|
  {
    if ys == [] then xs
    else if ys[0] in xs then UnionColumns(xs, ys[1..])
    else
      var grown := xs + [ys[0]];
      assert Distinct(xs) ==> Distinct(grown) by {
        if Distinct(xs) {
          forall i, j | 0 <= i < j < |grown| ensures grown[i] != grown[j] {
            if j == |xs| { assert grown[i] == xs[i]; }
          }
        }
      }
      var r := UnionColumns(grown, ys[1..]);
      assert r[..|xs|] == r[..|grown|][..|xs|];
      assert forall c :: c in ys <==> c == ys[0] || c in ys[1..];
      r
  }

  /**
   * `pd.concat([a, b], ignore_index=True)`: the rows of `a`, then the rows of
   * `b`; every column of either appears, those of `a` first. Its cells are
   * given by `ConcatCells`.
   */
  function Concat(a: DataFrame, b: DataFrame): (r: DataFrame)
    ensures r.height == a.height + b.height
    ensures forall c :: c in r.columns <==> c in a.columns || c in b.columns
    ensures |a.columns| <= |r.columns| && r.columns[..|a.columns|] == a.columns
  {
    var cols := UnionColumns(a.columns, b.columns);
    DataFrame(cols, map c | c in cols :: Cells(a, c) + Cells(b, c), a.height + b.height)
  }

  /** Concatenating two frames pandas keeps gives one it keeps. */
  lemma ConcatWellFormed(a: DataFrame, b: DataFrame)
    requires WellFormed(a) && WellFormed(b)
    ensures WellFormed(Concat(a, b))
  {
  }

  /** Column `c` of a concatenation is column `c` of `a` followed by column
      `c` of `b`, a table without that column contributing missing cells. */
  lemma ConcatCells(a: DataFrame, b: DataFrame, c: string)
    requires WellFormed(a) && WellFormed(b)
    ensures Cells(Concat(a, b), c) == Cells(a, c) + Cells(b, c)
  {
    var r := Concat(a, b);
    if c !in r.data {
      assert c !in a.data && c !in b.data;
      assert Repeat(Missing, a.height) + Repeat(Missing, b.height) == Repeat(Missing, r.height);
    }
  }

  /** Appending to the empty accumulator gives the appended table back. */
  lemma ConcatEmptyLeft(t: DataFrame)
    requires WellFormed(t)
    ensures Concat(Empty, t) == t
  {
    var r := Concat(Empty, t);
    UnionOfDistinctIsItself(t.columns);
    forall c | c in t.data ensures c in r.data && r.data[c] == t.data[c] {
      assert Cells(Empty, c) == [];
    }
    assert r.data == t.data;
  }

  lemma {:induction false} UnionOfDistinctIsItself(ys: seq<string>)
    requires Distinct(ys)
    ensures UnionColumns([], ys) == ys
  {
    UnionAppendsMissing([], ys);
  }

  /** The conditions of `UnionAppendsMissing` pass from `ys` to its tail,
      with its head moved over to `xs`. */
  lemma TailStillMissing(xs: seq<string>, ys: seq<string>)
    requires ys != [] && Distinct(ys)
    requires forall c :: c in ys ==> c !in xs
    ensures Distinct(ys[1..])
    ensures forall c :: c in ys[1..] ==> c !in xs + [ys[0]]
  {
    var rest := ys[1..];
    forall i, j | 0 <= i < j < |rest| ensures rest[i] != rest[j] {
      assert rest[i] == ys[i + 1] && rest[j] == ys[j + 1];
    }
    forall c | c in rest ensures c !in xs + [ys[0]] {
      var k :| 0 <= k < |rest| && rest[k] == c;
      assert ys[k + 1] == c && ys[0] != ys[k + 1];
    }
  }

  /** With no column in common, the union is the plain concatenation. */
  lemma {:induction false} UnionAppendsMissing(xs: seq<string>, ys: seq<string>)
    requires Distinct(ys)
    requires forall c :: c in ys ==> c !in xs
    ensures UnionColumns(xs, ys) == xs + ys
    decreases |ys|
  {
    if ys != [] {
      assert ys[0] in ys;
      TailStillMissing(xs, ys);
      UnionAppendsMissing(xs + [ys[0]], ys[1..]);
      assert xs + ys == (xs + [ys[0]]) + ys[1..];
    }
  }
}

=== FILE: Json.dfy ===
/**
 * Decoded JSON values as Python sees them after `json.load`, with the two
 * pieces of Python semantics the pipeline relies on: truthiness (what `or`
 * and `if not x` test) and `str()` (what an f-string interpolates).
 */
module Json {

  /** A decoded JSON document. `JNull` is Python's `None`. Only integral
      numbers are modelled. */
  datatype Json =
    | JNull
    | JBool(b: bool)
    | JInt(i: int)
    | JStr(s: string)
    | JArr(items: seq<Json>)
    | JObj(fields: map<string, Json>)

  /** Python truthiness: `None`, `False`, `0`, `""`, `[]` and `{}` are false. */
  predicate Truthy(v: Json): (b: bool)
    ensures !b <==> v == JNull || v == JBool(false) || v == JInt(0) || v == JStr("")
                    || v == JArr([]) || v == JObj(map[])
  {
    match v
    case JNull => false
    case JBool(b) => b
    case JInt(i) => i != 0
    case JStr(s) => s != ""
    case JArr(items) => items != []
    case JObj(fields) => fields != map[]
  }

  /** `d.get(key)`: the value under `key`, or `None` when the key is absent. */
  function Get(d: map<string, Json>, key: string): (v: Json)
    ensures v != JNull ==> key in d && d[key] == v
    ensures key in d ==> v == d[key]
  {
    if key in d then d[key] else JNull
  }

  /** The character of a decimal digit. */
  function DigitChar(d: nat): (c: char)
    requires d < 10
    ensures '0' <= c <= '9'
  {
    (48 + d) as char
  }

  /** The value of a decimal digit character. */
  function DigitValue(c: char): (d: nat)
    requires '0' <= c <= '9'
    ensures d < 10 && DigitChar(d) == c
  {
    (c as int - 48) as nat
  }

  predicate IsDigit(c: char) {
    '0' <= c <= '9'
  }

  predicate AllDigits(s: string) {
    forall i :: 0 <= i < |s| ==> IsDigit(s[i])
  }

  /** Python's `str(n)` for a non-negative integer: decimal digits, no leading zero. */
  function NatToDecimal(n: nat): (s: string)
    ensures |s| >= 1 && AllDigits(s)
    ensures n >= 10 <==> |s| >= 2
    ensures |s| >= 2 ==> s[0] != '0'
    decreases n
  {
    if n < 10 then [DigitChar(n)] else NatToDecimal(n / 10) + [DigitChar(n % 10)]
  }

  /** The number a string of decimal digits denotes (most significant first). */
  function DigitsValue(s: string): (n: nat)
    requires AllDigits(s)
  {
    if s == [] then 0 else DigitsValue(s[..|s| - 1]) * 10 + DigitValue(s[|s| - 1])
  }

  /** Python's `str(i)` for any integer. */
  function IntToDecimal(i: int): (s: string)
    ensures |s| >= 1
    ensures i < 0 <==> s[0] == '-'
    ensures i >= 0 ==> AllDigits(s)
  {
    if i < 0 then "-" + NatToDecimal(-i) else NatToDecimal(i)
  }

  /** Reading back the digits that `NatToDecimal` writes gives the number. */
  lemma {:induction false} DigitsValueOfDecimal(n: nat)
    ensures DigitsValue(NatToDecimal(n)) == n
    decreases n
  {
    var s := NatToDecimal(n);
    if n >= 10 {
      DigitsValueOfDecimal(n / 10);
      assert s[..|s| - 1] == NatToDecimal(n / 10);
    }
  }

  /** Distinct numbers have distinct decimal texts. */
  lemma NatToDecimalInjective(a: nat, b: nat)
    requires NatToDecimal(a) == NatToDecimal(b)
    ensures a == b
  {
    DigitsValueOfDecimal(a);
    DigitsValueOfDecimal(b);
  }

  /** Distinct integers have distinct decimal texts. */
  lemma IntToDecimalInjective(a: int, b: int)
    requires IntToDecimal(a) == IntToDecimal(b)
    ensures a == b
  {
    if a < 0 {
      assert IntToDecimal(a)[1..] == NatToDecimal(-a);
      assert IntToDecimal(b)[1..] == NatToDecimal(-b);
      NatToDecimalInjective(-a, -b);
    } else {
      NatToDecimalInjective(a, b);
    }
  }

  /**
   * Python's `str(v)` for the scalars: `None`, `True`/`False`, decimal
   * integers and strings as themselves. Lists and dicts are rendered only as
   * their brackets, not with Python's full `repr`.
   */
  function Str(v: Json): (r: string)
    ensures v.JNull? ==> r == "None"
    ensures v.JStr? ==> r == v.s
    ensures v.JBool? ==> r == (if v.b then "True" else "False")
    ensures v.JInt? ==> r == IntToDecimal(v.i)
    ensures v.JInt? ==> r != [] && (v.i < 0 <==> r[0] == '-') && AllDigits(if v.i < 0 then r[1..] else r)
  {
    match v
    case JNull => "None"
    case JBool(b) => if b then "True" else "False"
    case JInt(i) => IntToDecimal(i)
    case JStr(t) => t
    case JArr(_) => "[...]"
    case JObj(_) => "{...}"
  }
}

=== FILE: Loader.dfy ===
/**
 * Reading the ids out of a saved listing (`carregar_projetos`,
 * `carregar_orcamentos`): the file is decoded, and the `id` of every record
 * that has one is kept, in order. A missing or undecodable file gives `[]`;
 * other errors are not caught.
 */
module Loader {
  import opened Wrappers
  import opened Json

  /** What reading and decoding the file gave: no such file, text that is
      not JSON, a file that cannot be read as UTF-8 text at all (a directory,
      no permission, invalid UTF-8), or a decoded document. */
  datatype FileContent = NotFound | Undecodable | Unreadable | Decoded(value: Json)

  /** The uncaught exceptions: the TypeError the comprehension raises on an
      element (or a document) it cannot test or subscript, and the `OSError`
      or `UnicodeDecodeError` of a file that cannot be read. */
  datatype LoadError = TypeError | ReadError

  /** `t` occurs in `s` starting at position `i`. */
  predicate OccursAt(s: string, t: string, i: int) {
    0 <= i <= |s| - |t| && s[i..i + |t|] == t
  }

  /** Python's substring test `t in s`. */
  predicate Contains(s: string, t: string) {
    exists i :: 0 <= i <= |s| && OccursAt(s, t, i)
  }

  /**
   * One element of the comprehension `[p['id'] for p in items if 'id' in p]`:
   * an object contributes its `id` when it has that key; a list or a string
   * that contains `'id'` passes the test and then cannot be subscripted by a
   * string; a number, a boolean or `null` cannot be tested at all.
   */
  function IdOf(item: Json): (r: Result<Option<Json>, LoadError>)
    ensures item.JObj? ==> r.Ok? && (r.value.Some? <==> "id" in item.fields)
    ensures r.Ok? && r.value.Some? ==> item.JObj? && r.value.value == item.fields["id"]
    ensures item.JNull? || item.JBool? || item.JInt? ==> r.Err?
  {
    match item
      case JObj(fields) => if "id" in fields then Ok(Some(fields["id"])) else Ok(None)
      case JArr(elements) => if JStr("id") in elements then Err(TypeError) else Ok(None)
      case JStr(s) => if Contains(s, "id") then Err(TypeError) else Ok(None)
      case _ => Err(TypeError)
  }

  /** The comprehension over a list: the first element that raises stops it. */
  function ExtractIds(items: seq<Json>): (r: Result<seq<Json>, LoadError>)
    ensures r.Ok? ==> |r.value| <= |items|
  {
    if items == [] then Ok([])
    else
      match IdOf(items[0])
        case Err(e) => Err(e)
        case Ok(head) =>
          match ExtractIds(items[1..])
            case Err(e) => Err(e)
            case Ok(rest) => Ok(Kept(head) + rest)
  }

  /** What one element adds to the comprehension's list. */
  function Kept(head: Option<Json>): (r: seq<Json>)
    ensures |r| <= 1
  {
    if head.Some? then [head.value] else []
  }

  /** The comprehension succeeds exactly when no element raises. */
  lemma {:induction false} ExtractIdsOk(items: seq<Json>)
    ensures ExtractIds(items).Ok? <==> forall i :: 0 <= i < |items| ==> IdOf(items[i]).Ok?
  {
    if items != [] {
      var tail := items[1..];
      ExtractIdsOk(tail);
      assert forall i :: 1 <= i < |items| ==> items[i] == tail[i - 1];
    }
  }

  /** A record with an `id` key. */
  predicate HasId(item: Json) {
    item.JObj? && "id" in item.fields
  }

  /** The positions, counted from `offset`, of the records that have an `id`,
      in order. */
  function IdPositions(items: seq<Json>, offset: nat): (r: seq<nat>)
    ensures |r| <= |items|
    ensures forall k :: 0 <= k < |r| ==> offset <= r[k] < offset + |items|
  {
    if items == [] then []
    else (if HasId(items[0]) then [offset] else []) + IdPositions(items[1..], offset + 1)
  }

  /** The positions of a non-empty list in terms of those of its tail. */
  lemma IdPositionsStep(items: seq<Json>, offset: nat, k: nat)
    requires items != [] && k < |IdPositions(items, offset)|
    ensures |IdPositions(items, offset)| == |IdPositions(items[1..], offset + 1)| + (if HasId(items[0]) then 1 else 0)
    ensures HasId(items[0]) && k == 0 ==> IdPositions(items, offset)[k] == offset
    ensures HasId(items[0]) && k > 0 ==> IdPositions(items, offset)[k] == IdPositions(items[1..], offset + 1)[k - 1]
    ensures !HasId(items[0]) ==> IdPositions(items, offset)[k] == IdPositions(items[1..], offset + 1)[k]
  {
  }

  /** The `k`-th position holds a record with an `id`. */
  lemma {:induction false} IdPositionsSound(items: seq<Json>, offset: nat, k: nat)
    requires k < |IdPositions(items, offset)|
    ensures HasId(items[IdPositions(items, offset)[k] - offset])
  {
    var tail := items[1..];
    var rest := IdPositions(tail, offset + 1);
    IdPositionsStep(items, offset, k);
    if HasId(items[0]) {
      if k > 0 {
        IdPositionsSound(tail, offset + 1, k - 1);
        assert items[rest[k - 1] - offset] == tail[rest[k - 1] - (offset + 1)];
      }
    } else {
      IdPositionsSound(tail, offset + 1, k);
      assert items[rest[k] - offset] == tail[rest[k] - (offset + 1)];
    }
  }

  /** The positions increase strictly. */
  lemma {:induction false} IdPositionsIncreasing(items: seq<Json>, offset: nat, k: nat, l: nat)
    requires k < l < |IdPositions(items, offset)|
    ensures IdPositions(items, offset)[k] < IdPositions(items, offset)[l]
  {
    IdPositionsStep(items, offset, k);
    IdPositionsStep(items, offset, l);
    if HasId(items[0]) {
      if k > 0 {
        IdPositionsIncreasing(items[1..], offset + 1, k - 1, l - 1);
      }
    } else {
      IdPositionsIncreasing(items[1..], offset + 1, k, l);
    }
  }

  /** Every record with an `id` has its position listed. */
  lemma {:induction false} IdPositionsComplete(items: seq<Json>, offset: nat, i: nat)
    requires i < |items| && HasId(items[i])
    ensures offset + i in IdPositions(items, offset)
  {
    var tail := items[1..];
    if i > 0 {
      assert tail[i - 1] == items[i];
      IdPositionsComplete(tail, offset + 1, i - 1);
    }
  }

  /** Every element is an object. */
  predicate AllRecords(items: seq<Json>) {
    forall i :: 0 <= i < |items| ==> items[i].JObj?
  }

  /** The tail of a list of records is a list of records. */
  lemma AllRecordsTail(items: seq<Json>)
    requires items != [] && AllRecords(items)
    ensures AllRecords(items[1..])
  {
    var tail := items[1..];
    forall i | 0 <= i < |tail| ensures tail[i].JObj? { assert tail[i] == items[i + 1]; }
  }

  /** Over records the loader yields one id per record that has one. */
  lemma {:induction false} ExtractIdsCount(items: seq<Json>, offset: nat)
    requires AllRecords(items)
    ensures ExtractIds(items).Ok? && |ExtractIds(items).value| == |IdPositions(items, offset)|
  {
    if items != [] {
      AllRecordsTail(items);
      ExtractIdsCount(items[1..], offset + 1);
    }
  }

  /** The ids of a non-empty list in terms of those of its tail. */
  lemma ExtractIdsStep(items: seq<Json>)
    requires items != [] && ExtractIds(items).Ok?
    ensures ExtractIds(items[1..]).Ok?
    ensures ExtractIds(items).value == Kept(IdOf(items[0]).value) + ExtractIds(items[1..]).value
  {
  }

  /**
   * Over a list of records the `k`-th id the loader keeps is the `id` of the
   * `k`-th record that has one: records keep their order, and those without
   * an `id` are skipped. Positions are counted from `offset`.
   */
  lemma {:induction false} ExtractIdsOfRecords(items: seq<Json>, offset: nat, k: nat)
    requires AllRecords(items) && k < |IdPositions(items, offset)|
    ensures ExtractIds(items).Ok? && k < |ExtractIds(items).value|
    ensures HasId(items[IdPositions(items, offset)[k] - offset])
            && ExtractIds(items).value[k] == items[IdPositions(items, offset)[k] - offset].fields["id"]
    decreases |items|, 1
  {
    ExtractIdsCount(items, offset);
    IdPositionsSound(items, offset, k);
    IdPositionsStep(items, offset, k);
    if HasId(items[0]) && k == 0 {
      ExtractIdsStep(items);
      assert ExtractIds(items).value == [items[0].fields["id"]] + ExtractIds(items[1..]).value;
    } else {
      LaterIdOfRecords(items, offset, k);
    }
  }

  /** The inductive step: an id after the first comes from the tail. */
  lemma {:induction false} LaterIdOfRecords(items: seq<Json>, offset: nat, k: nat)
    requires AllRecords(items) && k < |IdPositions(items, offset)| && items != [] && !(HasId(items[0]) && k == 0)
    requires ExtractIds(items).Ok? && |ExtractIds(items).value| == |IdPositions(items, offset)|
    requires HasId(items[IdPositions(items, offset)[k] - offset])
    ensures ExtractIds(items).value[k] == items[IdPositions(items, offset)[k] - offset].fields["id"]
    decreases |items|, 0
  {
    var tail := items[1..];
    AllRecordsTail(items);
    IdPositionsStep(items, offset, k);
    ExtractIdsStep(items);
    var ids := ExtractIds(items).value;
    var restIds := ExtractIds(tail).value;
    var rest := IdPositions(tail, offset + 1);
    var j := if HasId(items[0]) then k - 1 else k;
    assert ids == Kept(IdOf(items[0]).value) + restIds;
    assert |Kept(IdOf(items[0]).value)| == k - j;
    ExtractIdsOfRecords(tail, offset + 1, j);
    assert ids[k] == restIds[j];
    assert items[rest[j] - offset] == tail[rest[j] - (offset + 1)];
  }

  /** No record has an `id`: the loader returns `[]`. */
  lemma {:induction false} NoIdsGiveEmpty(items: seq<Json>)
    requires AllRecords(items)
    requires forall i :: 0 <= i < |items| ==> "id" !in items[i].fields
    ensures ExtractIds(items) == Ok([])
  {
    if items != [] {
      var tail := items[1..];
      AllRecordsTail(items);
      forall i | 0 <= i < |tail| ensures "id" !in tail[i].fields { assert tail[i] == items[i + 1]; }
      NoIdsGiveEmpty(tail);
    }
  }

  /**
   * The whole loader. Iterating an object walks its keys and iterating a
   * string its characters, so a top-level object fails exactly when one of its
   * keys contains `id`, and a top-level string never yields anything; a
   * top-level number, boolean or `null` has no `len()` (`carregar_projetos`).
   */
  function LoadProjects(content: FileContent): (r: Result<seq<Json>, LoadError>)
    ensures content.NotFound? || content.Undecodable? ==> r == Ok([])
    ensures content.Unreadable? ==> r == Err(ReadError)
    ensures content.Decoded? && content.value.JArr? ==> r == ExtractIds(content.value.items)
    ensures content.Decoded? && content.value.JObj? ==>
              (r.Err? <==> exists k :: k in content.value.fields && Contains(k, "id"))
    ensures content.Decoded? && content.value.JObj? && r.Ok? ==> r.value == []
    ensures content.Decoded? && content.value.JStr? ==> r == Ok([])
    ensures content.Decoded? && (content.value.JNull? || content.value.JBool? || content.value.JInt?) ==> r.Err?
  {
    match content
      case NotFound => Ok([])
      case Undecodable => Ok([])
      case Unreadable => Err(ReadError)
      case Decoded(JArr(items)) => ExtractIds(items)
      case Decoded(JObj(fields)) =>
        if exists k :: k in fields && Contains(k, "id") then Err(TypeError) else Ok([])
      case Decoded(JStr(_)) => Ok([])
      case Decoded(_) => Err(TypeError)
  }

  /** `carregar_orcamentos`: a copy of the projects loader over a budgets
      file, with the same extraction and the same fallbacks. */
  function LoadBudgets(content: FileContent): (r: Result<seq<Json>, LoadError>)
    ensures r == LoadProjects(content)
    ensures content.NotFound? || content.Undecodable? ==> r == Ok([])
    ensures content.Unreadable? ==> r == Err(ReadError)
    ensures content.Decoded? && content.value.JArr? ==> r == ExtractIds(content.value.items)
    ensures content.Decoded? && content.value.JObj? ==>
              (r.Err? <==> exists k :: k in content.value.fields && Contains(k, "id"))
    ensures content.Decoded? && content.value.JObj? && r.Ok? ==> r.value == []
    ensures content.Decoded? && content.value.JStr? ==> r == Ok([])
    ensures content.Decoded? && (content.value.JNull? || content.value.JBool? || content.value.JInt?) ==> r.Err?
  {
    LoadProjects(content)
  }
}

=== FILE: Names.dfy ===
/**
 * File names the pipeline writes and the filters that later select them:
 * raw responses `New_Request-<epoch millis>.json`, per-project sheets
 * `activities_project_<id>.xlsx`.
 */
module Names {
  import opened Json

  predicate StartsWith(s: string, prefix: string) {
    |prefix| <= |s| && s[..|prefix|] == prefix
  }

  predicate EndsWith(s: string, suffix: string) {
    |suffix| <= |s| && s[|s| - |suffix|..] == suffix
  }

  const RawDir := "responses_raw"
  const RawPrefix := "New_Request-"
  const JsonSuffix := ".json"
  const SheetPrefix := "activities_project_"
  const SheetSuffix := ".xlsx"

  /** `os.path.join(dir, name)`. */
  function Join(dir: string, name: string): string {
    dir + "/" + name
  }

  /** The raw-response file name fixed from the clock before the first attempt. */
  function RawFileName(timestampMs: int): (r: string)
    ensures |r| == |RawPrefix| + |IntToDecimal(timestampMs)| + |JsonSuffix|
    ensures r[..|RawPrefix|] == RawPrefix && r[|r| - |JsonSuffix|..] == JsonSuffix
    ensures r[|RawPrefix|..|r| - |JsonSuffix|] == IntToDecimal(timestampMs)
  {
    RawPrefix + IntToDecimal(timestampMs) + JsonSuffix
  }

  /** The per-project sheet name (`activities_project_{project_identifier}.xlsx`). */
  function SheetFileName(id: Json): (r: string)
    ensures |r| == |SheetPrefix| + |Str(id)| + |SheetSuffix|
    ensures r[..|SheetPrefix|] == SheetPrefix && r[|r| - |SheetSuffix|..] == SheetSuffix
    ensures r[|SheetPrefix|..|r| - |SheetSuffix|] == Str(id)
  {
    SheetPrefix + Str(id) + SheetSuffix
  }

  /** The cleanup filter: `name.endswith(".json")`. */
  predicate IsRawJson(name: string): (b: bool)
    ensures b <==> |name| >= 5 && name == name[..|name| - 5] + ".json"
  {
    EndsWith(name, JsonSuffix)
  }

  /** The consolidation filter of the orchestrator. */
  predicate IsSheetFile(name: string): (b: bool)
    ensures b <==> |name| >= |SheetPrefix| + |SheetSuffix|
                   && name == SheetPrefix + name[|SheetPrefix|..|name| - |SheetSuffix|] + SheetSuffix
  {
    if StartsWith(name, SheetPrefix) && EndsWith(name, SheetSuffix) then
      SheetAffixesApart(name);
      true
    else
      false
  }

  /** The sheet prefix holds no `.`, so the `.xlsx` suffix cannot start inside it. */
  lemma SheetAffixesApart(name: string)
    requires StartsWith(name, SheetPrefix) && EndsWith(name, SheetSuffix)
    ensures |name| >= |SheetPrefix| + |SheetSuffix|
  {
    var k := |name| - |SheetSuffix|;
    assert name[k] == '.' by {
      assert name[k..][0] == name[k];
    }
    forall i | 0 <= i < |SheetPrefix|
      ensures name[i] != '.'
    {
      assert name[..|SheetPrefix|][i] == name[i];
    }
  }

  lemma EndsWithAppend(s: string, suffix: string)
    ensures EndsWith(s + suffix, suffix)
  {
    assert (s + suffix)[|s + suffix| - |suffix|..] == suffix;
  }

  lemma StartsWithAppend(prefix: string, s: string)
    ensures StartsWith(prefix + s, prefix)
  {
    assert (prefix + s)[..|prefix|] == prefix;
  }

  /** Every sheet the export writes is picked up by the consolidation filter,
      and none of them is a raw response that cleanup would delete. */
  lemma SheetNameSelected(id: Json)
    ensures IsSheetFile(SheetFileName(id))
    ensures !IsRawJson(SheetFileName(id))
  {
    var name := SheetFileName(id);
    assert name == SheetPrefix + (Str(id) + SheetSuffix);
    StartsWithAppend(SheetPrefix, Str(id) + SheetSuffix);
    EndsWithAppend(SheetPrefix + Str(id), SheetSuffix);
    assert name[|name| - 5..] == ".xlsx";
  }

  /** Every raw response is deleted by cleanup and never consolidated. */
  lemma RawNameCleaned(timestampMs: int)
    ensures IsRawJson(RawFileName(timestampMs))
    ensures !IsSheetFile(RawFileName(timestampMs))
  {
    var name := RawFileName(timestampMs);
    EndsWithAppend(RawPrefix + IntToDecimal(timestampMs), JsonSuffix);
    assert name[0] == 'N';
  }

  /** Two different integer identifiers never share a sheet, so re-running a
      project overwrites its own sheet and only its own. */
  lemma SheetNameInjective(a: int, b: int)
    requires SheetFileName(JInt(a)) == SheetFileName(JInt(b))
    ensures a == b
  {
    var na, nb := SheetFileName(JInt(a)), SheetFileName(JInt(b));
    var da, db := IntToDecimal(a), IntToDecimal(b);
    assert na[|SheetPrefix|..|na| - |SheetSuffix|] == da;
    assert nb[|SheetPrefix|..|nb| - |SheetSuffix|] == db;
    IntToDecimalInjective(a, b);
  }

  /** Responses fetched at different milliseconds land in different files. */
  lemma RawFileNameInjective(t1: int, t2: int)
    requires RawFileName(t1) == RawFileName(t2)
    ensures t1 == t2
  {
    var n1, n2 := RawFileName(t1), RawFileName(t2);
    assert n1[|RawPrefix|..|n1| - |JsonSuffix|] == IntToDecimal(t1);
    assert n2[|RawPrefix|..|n2| - |JsonSuffix|] == IntToDecimal(t2);
    IntToDecimalInjective(t1, t2);
  }
}

=== FILE: Pipeline.dfy ===
/**
 * The orchestrator (`main`): for every listed project, download its
 * schedule, wait, and export it when the download worked; then merge every
 * sheet in the output directory and delete the raw responses. The directories
 * the run touches are a `Disk` value; an uncaught exception ends the run with
 * a `Crash`, after which nothing else happens.
 */
module Pipeline {
  import opened Wrappers
  import opened Json
  import opened Config
  import opened Names
  import opened Throttle
  import opened Fetch
  import opened Frame
  import opened Export
  import opened Consolidate
  import opened Cleanup

  /** The directory the per-project sheets are written to. */
  const OutputDir: string := "/home/kevin/Documentos/Projetos/Prevision/projects/"

  /** The three places the run writes: the raw responses directory, the
      sheets directory (both by file name), and the merged workbook. */
  datatype Disk = Disk(raw: map<string, Payload>, sheets: map<string, Table>, consolidated: Option<Table>)

  /** The uncaught exceptions that end a run. */
  datatype Crash =
    | BadListing                           // `json_projects['projects']` or iterating it raised
    | BadProject(index: nat)               // `project['id']` or `project['name']` raised
    | ExportRaised(index: nat, error: ExportError)

  /** What happened to one project. */
  datatype ProjectLog = ProjectLog(
    id: Json,
    fetched: Option<string>,
    fetchEvents: seq<Event<Payload>>,
    sleeps: seq<int>,
    exported: Option<Result<string, ExportError>>)

  /**
   * The projects `main` iterates over. The listing must be an object with a
   * `projects` entry: a failed listing (`None`) is not caught. Iterating an
   * empty object or string yields nothing; a non-empty one yields strings,
   * and subscripting the first one raises.
   */
  function Projects(listing: Option<Json>): (r: Result<seq<Json>, Crash>)
    ensures listing.None? ==> r == Err(BadListing)
    ensures r.Ok? ==> listing.Some? && listing.value.JObj? && "projects" in listing.value.fields
    ensures r.Ok? && r.value != [] ==> listing.value.fields["projects"] == JArr(r.value)
    ensures (listing.Some? && listing.value.JObj? && "projects" in listing.value.fields
             && listing.value.fields["projects"].JArr?) ==> r == Ok(listing.value.fields["projects"].items)
  {
    if listing.None? || !listing.value.JObj? || "projects" !in listing.value.fields then Err(BadListing)
    else match listing.value.fields["projects"]
      case JArr(items) => Ok(items)
      case JObj(fields) => if fields == map[] then Ok([]) else Err(BadListing)
      case JStr(s) => if s == "" then Ok([]) else Err(BadListing)
      case _ => Err(BadListing)
  }

  /** `project['id']` and `project['name']`, when both subscripts succeed. */
  function Identity(project: Json): (r: Option<(Json, Json)>)
    ensures r.Some? <==> project.JObj? && "id" in project.fields && "name" in project.fields
    ensures r.Some? ==> r.value == (project.fields["id"], project.fields["name"])
  {
    if project.JObj? && "id" in project.fields && "name" in project.fields then
      Some((project.fields["id"], project.fields["name"]))
    else None
  }

  /** The wait after a download took `seconds` in all. */
  predicate Waited(sleeps: seq<int>, seconds: int) {
    (seconds <= 0 ==> sleeps == []) && (seconds > 0 ==> Total(sleeps) == seconds)
  }

  /** The raw file name the `j`-th download uses. */
  function RawName(clock: nat -> int, j: nat): string {
    RawFileName(clock(j))
  }

  /**
   * What the export of `payload` gives: the resolution error, or success
   * exactly when no leading column clashes with an activity column, under
   * the sheet name of the resolved identifier.
   */
  predicate Exported(id: Json, name: Json, payload: Payload, exported: Result<string, ExportError>) {
    && (ResolveIdentifier(id, payload.doc).Err? ==> exported == Err(ResolveIdentifier(id, payload.doc).error))
    && (ResolveIdentifier(id, payload.doc).Ok? ==>
          (exported.Ok? <==> "project_id" !in payload.activities.columns
                             && (name != JNull ==> "project_name" !in payload.activities.columns)))
    && (exported.Ok? ==>
          ResolveIdentifier(id, payload.doc).Ok?
          && exported.value == SheetFileName(ResolveIdentifier(id, payload.doc).value))
  }

  /** Every entry of `m0` outside `written` is still in `m`, unchanged. */
  ghost predicate Keeps<V>(m0: map<string, V>, m: map<string, V>, written: set<string>) {
    forall n :: n in m0 && n !in written ==> n in m && m[n] == m0[n]
  }

  /** What two steps keep, both together keep. */
  lemma KeepsTrans<V>(m0: map<string, V>, m1: map<string, V>, m2: map<string, V>, a: set<string>, b: set<string>)
    requires Keeps(m0, m1, a) && Keeps(m1, m2, b)
    ensures Keeps(m0, m2, a + b)
  {
  }

  /**
   * The `j`-th project was handled as `main` promises: downloaded with the
   * configured retries into its own raw file, followed by the configured wait
   * whatever the outcome, and exported exactly when the download worked.
   */
  predicate ProjectDone(j: nat, id: Json, name: Json, s: Settings, clock: nat -> int,
                        respond: nat -> nat -> Response<Payload>, log: ProjectLog)
  {
    && log.id == id
    && log.fetched == Outcome(0, s.maxRetries, Join(RawDir, RawName(clock, j)), respond(j))
    && log.fetchEvents == Trace(0, s.maxRetries, s.retryDelay, Join(RawDir, RawName(clock, j)), respond(j))
    && Waited(log.sleeps, s.waitSeconds)
    && (log.exported.Some? <==> log.fetched.Some?)
    && (log.exported.Some? && log.exported.value.Ok? ==> IsSheetFile(log.exported.value.value))
    && (log.exported.Some? ==>
          log.fetchEvents != [] && log.fetchEvents[|log.fetchEvents| - 1].WriteRaw?
          && Exported(id, name, log.fetchEvents[|log.fetchEvents| - 1].body, log.exported.value))
  }

  /** The name of the sheet a project's export wrote, if any. */
  function SheetWritten(log: ProjectLog): set<string> {
    if log.exported.Some? && log.exported.value.Ok? then {log.exported.value.value} else {}
  }

  /** The name of the raw file a project's download wrote, if any. */
  function RawWritten(clock: nat -> int, j: nat, log: ProjectLog): set<string> {
    if log.fetched.Some? then {RawName(clock, j)} else {}
  }

  /** The payload a project's download wrote to its raw file, if any. */
  function Downloaded(log: ProjectLog): Option<Payload> {
    if log.fetched.Some? && log.fetchEvents != [] && log.fetchEvents[|log.fetchEvents| - 1].WriteRaw?
    then Some(log.fetchEvents[|log.fetchEvents| - 1].body)
    else None
  }

  /** `table` is the sheet a project named `name` exported from its download. */
  ghost predicate LogHolds(name: Json, log: ProjectLog, p: Parsers, table: Table) {
    && Downloaded(log).Some?
    && ResolveIdentifier(log.id, Downloaded(log).value.doc).Ok?
    && SheetHolds(Downloaded(log).value.activities, ResolveIdentifier(log.id, Downloaded(log).value.doc).value,
                  name, table)
    && exists stopped: nat :: Converted(Downloaded(log).value.activities, table, p, stopped)
  }

  /** Exports a downloaded payload and files the sheet under its name in the
      sheets directory. */
  method SaveSheet(id: Json, name: Json, p: Parsers, payload: Payload, disk0: Disk)
    returns (exported: Result<string, ExportError>, disk: Disk)
    ensures disk.raw == disk0.raw && disk.consolidated == disk0.consolidated
    ensures exported.Err? ==> disk.sheets == disk0.sheets
    ensures Exported(id, name, payload, exported)
    ensures Keeps(disk0.sheets, disk.sheets, if exported.Ok? then {exported.value} else {})
    ensures exported.Ok? ==>
              ResolveIdentifier(id, payload.doc).Ok? &&
              var resolved := ResolveIdentifier(id, payload.doc).value;
              && exported.value == SheetFileName(resolved)
              && IsSheetFile(exported.value)
              && disk.sheets.Keys == disk0.sheets.Keys + {exported.value}
              && SheetHolds(payload.activities, resolved, name, disk.sheets[exported.value])
              && exists stopped: nat :: Converted(payload.activities, disk.sheets[exported.value], p, stopped)
  {
    disk := disk0;
    var sheet, stopped := ExportActivities(payload, OutputDir, id, name, p);
    if sheet.Err? {
      return Err(sheet.error), disk;
    }
    var resolved := ResolveIdentifier(id, payload.doc).value;
    exported := Ok(SheetFileName(resolved));
    disk := disk.(sheets := disk.sheets[exported.value := sheet.value.table]);
    SheetFiled(payload.activities, resolved, name, p, stopped, sheet.value.table, disk0.sheets);
  }

  /** Filing an exported sheet under its name adds that one sheet. */
  lemma SheetFiled(activities: DataFrame, resolved: Json, name: Json, p: Parsers, stopped: nat, table: Table,
                   sheets0: map<string, Table>)
    requires SheetHolds(activities, resolved, name, table) && Converted(activities, table, p, stopped)
    ensures var sheets := sheets0[SheetFileName(resolved) := table];
            && IsSheetFile(SheetFileName(resolved))
            && sheets.Keys == sheets0.Keys + {SheetFileName(resolved)}
            && Keeps(sheets0, sheets, {SheetFileName(resolved)})
            && SheetHolds(activities, resolved, name, sheets[SheetFileName(resolved)])
            && exists stopped: nat :: Converted(activities, sheets[SheetFileName(resolved)], p, stopped)
  {
    SheetNameSelected(resolved);
    KeepsUpdate(sheets0, SheetFileName(resolved), table);
    assert sheets0[SheetFileName(resolved) := table][SheetFileName(resolved)] == table;
  }

  /**
   * What handling the `j`-th project, named `name`, leaves on disk, given its
   * log: exactly its raw file and its sheet are written; the raw file holds
   * the download and the sheet the project's export (`LogHolds`); every other
   * file keeps its contents and the workbook is untouched.
   */
  ghost predicate ProjectStored(j: nat, name: Json, clock: nat -> int, p: Parsers, log: ProjectLog,
                                disk0: Disk, disk: Disk)
  {
    && disk.consolidated == disk0.consolidated
    && disk.raw.Keys == disk0.raw.Keys + RawWritten(clock, j, log)
    && disk.sheets.Keys == disk0.sheets.Keys + SheetWritten(log)
    && Keeps(disk0.raw, disk.raw, RawWritten(clock, j, log))
    && Keeps(disk0.sheets, disk.sheets, SheetWritten(log))
    && (Downloaded(log).Some? <==> log.fetched.Some?)
    && disk.raw == (if Downloaded(log).Some? then disk0.raw[RawName(clock, j) := Downloaded(log).value]
                    else disk0.raw)
    && (log.exported.Some? && log.exported.value.Ok? ==>
          log.exported.value.value in disk.sheets && LogHolds(name, log, p, disk.sheets[log.exported.value.value]))
  }

  /** One iteration of the project loop. */
  method RunProject(j: nat, id: Json, name: Json, s: Settings, hasProgressBar: bool, clock: nat -> int,
                    respond: nat -> nat -> Response<Payload>, p: Parsers, disk0: Disk)
    returns (log: ProjectLog, disk: Disk)
    ensures ProjectDone(j, id, name, s, clock, respond, log)
    ensures ProjectStored(j, name, clock, p, log, disk0, disk)
  {
    var fetched, events, sleeps := Download(j, s, hasProgressBar, clock, respond);
    if fetched.None? {
      return ProjectLog(id, fetched, events, sleeps, None), disk0;
    }
    log, disk := ExportDownload(j, id, name, s, clock, respond, p, fetched, events, sleeps, disk0);
  }

  /** A project whose download worked: its payload is stored, then exported. */
  method ExportDownload(j: nat, id: Json, name: Json, s: Settings, clock: nat -> int,
                        respond: nat -> nat -> Response<Payload>, p: Parsers,
                        fetched: Option<string>, events: seq<Event<Payload>>, sleeps: seq<int>, disk0: Disk)
    returns (log: ProjectLog, disk: Disk)
    requires fetched.Some?
    requires fetched == Outcome(0, s.maxRetries, Join(RawDir, RawName(clock, j)), respond(j))
    requires events == Trace(0, s.maxRetries, s.retryDelay, Join(RawDir, RawName(clock, j)), respond(j))
    requires Waited(sleeps, s.waitSeconds)
    requires events != [] && events[|events| - 1].WriteRaw?
    ensures log == ProjectLog(id, fetched, events, sleeps, log.exported) && log.exported.Some?
    ensures ProjectDone(j, id, name, s, clock, respond, log)
    ensures ProjectStored(j, name, clock, p, log, disk0, disk)
  {
    var payload := events[|events| - 1].body;
    var exported;
    exported, disk := StoreAndExport(RawName(clock, j), id, name, p, payload, disk0);
    log := ProjectLog(id, fetched, events, sleeps, Some(exported));
    StoredAndExported(j, id, name, clock, p, payload, exported, log, disk0, disk);
    ExportedDone(j, id, name, s, clock, respond, log);
  }

  /** A downloaded and exported project was handled as `main` promises. */
  lemma ExportedDone(j: nat, id: Json, name: Json, s: Settings, clock: nat -> int,
                     respond: nat -> nat -> Response<Payload>, log: ProjectLog)
    requires log.id == id
    requires log.fetched == Outcome(0, s.maxRetries, Join(RawDir, RawName(clock, j)), respond(j))
    requires log.fetchEvents == Trace(0, s.maxRetries, s.retryDelay, Join(RawDir, RawName(clock, j)), respond(j))
    requires Waited(log.sleeps, s.waitSeconds)
    requires log.fetched.Some? && log.exported.Some?
    requires log.fetchEvents != [] && log.fetchEvents[|log.fetchEvents| - 1].WriteRaw?
    requires Exported(id, name, log.fetchEvents[|log.fetchEvents| - 1].body, log.exported.value)
    ensures ProjectDone(j, id, name, s, clock, respond, log)
  {
    if log.exported.value.Ok? {
      SheetNameSelected(ResolveIdentifier(id, log.fetchEvents[|log.fetchEvents| - 1].body.doc).value);
    }
  }

  /** What storing and exporting a downloaded payload leaves on disk, in the
      terms of the project's log. */
  lemma StoredAndExported(j: nat, id: Json, name: Json, clock: nat -> int, p: Parsers, payload: Payload,
                          exported: Result<string, ExportError>, log: ProjectLog, disk0: Disk, disk: Disk)
    requires log.id == id && log.fetched.Some? && log.exported == Some(exported)
    requires log.fetchEvents != [] && log.fetchEvents[|log.fetchEvents| - 1].WriteRaw?
    requires log.fetchEvents[|log.fetchEvents| - 1].body == payload
    requires disk.consolidated == disk0.consolidated
    requires disk.raw == disk0.raw[RawName(clock, j) := payload]
    requires disk.sheets.Keys == disk0.sheets.Keys + (if exported.Ok? then {exported.value} else {})
    requires Keeps(disk0.sheets, disk.sheets, if exported.Ok? then {exported.value} else {})
    requires exported.Ok? ==>
               ResolveIdentifier(id, payload.doc).Ok?
               && SheetHolds(payload.activities, ResolveIdentifier(id, payload.doc).value, name,
                             disk.sheets[exported.value])
               && exists stopped: nat :: Converted(payload.activities, disk.sheets[exported.value], p, stopped)
    ensures disk.raw.Keys == disk0.raw.Keys + RawWritten(clock, j, log)
    ensures disk.sheets.Keys == disk0.sheets.Keys + SheetWritten(log)
    ensures Keeps(disk0.raw, disk.raw, RawWritten(clock, j, log))
    ensures Keeps(disk0.sheets, disk.sheets, SheetWritten(log))
    ensures RawName(clock, j) in disk.raw && disk.raw[RawName(clock, j)] == payload
    ensures log.exported.value.Ok? ==>
              ResolveIdentifier(id, payload.doc).Ok?
              && SheetHolds(payload.activities, ResolveIdentifier(id, payload.doc).value, name,
                            disk.sheets[log.exported.value.value])
    ensures Downloaded(log) == Some(payload)
    ensures disk.raw == disk0.raw[RawName(clock, j) := Downloaded(log).value]
    ensures log.exported.value.Ok? ==>
              log.exported.value.value in disk.sheets && LogHolds(name, log, p, disk.sheets[log.exported.value.value])
  {
    KeepsUpdate(disk0.raw, RawName(clock, j), payload);
  }

  /** The `j`-th download into its own raw file, then the wait that follows
      it whatever the outcome. */
  method Download(j: nat, s: Settings, hasProgressBar: bool, clock: nat -> int,
                  respond: nat -> nat -> Response<Payload>)
    returns (fetched: Option<string>, events: seq<Event<Payload>>, sleeps: seq<int>)
    ensures fetched == Outcome(0, s.maxRetries, Join(RawDir, RawName(clock, j)), respond(j))
    ensures events == Trace(0, s.maxRetries, s.retryDelay, Join(RawDir, RawName(clock, j)), respond(j))
    ensures Waited(sleeps, s.waitSeconds)
    ensures fetched.Some? ==> events != [] && events[|events| - 1].WriteRaw?
  {
    var filepath := Join(RawDir, RawName(clock, j));
    fetched, events := FetchSchedule(s.maxRetries, s.retryDelay, filepath, respond(j));
    sleeps := Wait(s.waitSeconds, hasProgressBar);
    FetchedWritesLast(0, s.maxRetries, s.retryDelay, filepath, respond(j));
  }

  /** Stores a downloaded payload under its raw name, then exports it. */
  method StoreAndExport(rawName: string, id: Json, name: Json, p: Parsers, payload: Payload, disk0: Disk)
    returns (exported: Result<string, ExportError>, disk: Disk)
    ensures disk.consolidated == disk0.consolidated
    ensures disk.raw == disk0.raw[rawName := payload]
    ensures Exported(id, name, payload, exported)
    ensures disk.sheets.Keys == disk0.sheets.Keys + (if exported.Ok? then {exported.value} else {})
    ensures Keeps(disk0.sheets, disk.sheets, if exported.Ok? then {exported.value} else {})
    ensures exported.Ok? ==>
              && IsSheetFile(exported.value)
              && ResolveIdentifier(id, payload.doc).Ok?
              && SheetHolds(payload.activities, ResolveIdentifier(id, payload.doc).value, name,
                            disk.sheets[exported.value])
              && exists stopped: nat :: Converted(payload.activities, disk.sheets[exported.value], p, stopped)
  {
    disk := disk0.(raw := disk0.raw[rawName := payload]);
    exported, disk := SaveSheet(id, name, p, payload, disk);
  }

  /** Storing one entry keeps every other. */
  lemma KeepsUpdate<V>(m0: map<string, V>, k: string, v: V)
    ensures Keeps(m0, m0[k := v], {k})
  {
  }

  /** `os.listdir`: the names of a directory, in an order the platform picks. */
  method ListDir(names: set<string>) returns (listing: seq<string>)
    ensures forall n :: n in listing <==> n in names
    ensures NoDuplicates(listing)
  {
    listing := [];
    var rest := names;
    while rest != {}
      invariant rest <= names
      invariant forall n :: n in listing <==> n in names && n !in rest
      invariant NoDuplicates(listing)
      decreases |rest|
    {
      var n :| n in rest;
      listing := listing + [n];
      rest := rest - {n};
    }
  }

  /** The sheets named by `order`, in that order. */
  function SheetsInOrder(sheets: map<string, Table>, order: seq<string>): (r: seq<Table>)
    requires forall n :: n in order ==> n in sheets
    ensures |r| == |order|
    ensures forall k :: 0 <= k < |order| ==> r[k] == sheets[order[k]]
  {
    if order == [] then [] else [sheets[order[0]]] + SheetsInOrder(sheets, order[1..])
  }

  /** The projects handled so far all kept `main`'s promises. */
  ghost predicate LogsDone(items: seq<Json>, logs: seq<ProjectLog>, s: Settings, clock: nat -> int,
                           respond: nat -> nat -> Response<Payload>)
  {
    && |logs| <= |items|
    && forall j :: 0 <= j < |logs| ==>
         Identity(items[j]).Some?
         && ProjectDone(j, Identity(items[j]).value.0, Identity(items[j]).value.1, s, clock, respond, logs[j])
  }

  /** No project so far failed its export. */
  predicate NoExportFailed(logs: seq<ProjectLog>) {
    forall j :: 0 <= j < |logs| ==> !(logs[j].exported.Some? && logs[j].exported.value.Err?)
  }

  /** The raw files the logged projects wrote. */
  function RawWrittenAll(clock: nat -> int, logs: seq<ProjectLog>): set<string> {
    if logs == [] then {}
    else RawWrittenAll(clock, logs[..|logs| - 1]) + RawWritten(clock, |logs| - 1, logs[|logs| - 1])
  }

  /** The sheets the logged projects wrote. */
  function SheetsWrittenAll(logs: seq<ProjectLog>): set<string> {
    if logs == [] then {} else SheetsWrittenAll(logs[..|logs| - 1]) + SheetWritten(logs[|logs| - 1])
  }

  /** The raw files the logged projects wrote, each with the payload of the
      last download that wrote under its name. */
  function RawFiles(clock: nat -> int, logs: seq<ProjectLog>): map<string, Payload> {
    if logs == [] then map[]
    else
      var earlier := RawFiles(clock, logs[..|logs| - 1]);
      var d := Downloaded(logs[|logs| - 1]);
      if d.Some? then earlier[RawName(clock, |logs| - 1) := d.value] else earlier
  }

  /** The raw file of the `j`-th download holds its payload, unless a later
      download wrote under the same name. */
  lemma {:induction false} RawFilesLastWriter(clock: nat -> int, logs: seq<ProjectLog>, j: nat)
    requires j < |logs| && Downloaded(logs[j]).Some?
    requires forall k :: j < k < |logs| && Downloaded(logs[k]).Some? ==> RawName(clock, k) != RawName(clock, j)
    ensures RawName(clock, j) in RawFiles(clock, logs)
    ensures RawFiles(clock, logs)[RawName(clock, j)] == Downloaded(logs[j]).value
    decreases |logs|
  {
    if j < |logs| - 1 {
      var earlier := logs[..|logs| - 1];
      assert forall k :: j < k < |earlier| ==> earlier[k] == logs[k];
      RawFilesLastWriter(clock, earlier, j);
      assert earlier[j] == logs[j];
    }
  }

  /** Appending a project's log adds its raw file, if its download wrote one. */
  lemma RawFilesAppend(clock: nat -> int, logs: seq<ProjectLog>, log: ProjectLog)
    ensures RawFiles(clock, logs + [log]) ==
              if Downloaded(log).Some? then RawFiles(clock, logs)[RawName(clock, |logs|) := Downloaded(log).value]
              else RawFiles(clock, logs)
  {
    assert (logs + [log])[..|logs|] == logs;
  }

  /** One more project keeps the raw directory equal to what was there
      before the run, overwritten by the raw files of the run. */
  lemma RawFilesStep(clock: nat -> int, logs: seq<ProjectLog>, log: ProjectLog,
                     raw0: map<string, Payload>, before: map<string, Payload>, after: map<string, Payload>)
    requires before == raw0 + RawFiles(clock, logs)
    requires after == if Downloaded(log).Some? then before[RawName(clock, |logs|) := Downloaded(log).value]
                      else before
    ensures after == raw0 + RawFiles(clock, logs + [log])
  {
    RawFilesAppend(clock, logs, log);
  }

  /** The last logged project whose export wrote the sheet `n`. */
  function LastExport(logs: seq<ProjectLog>, n: string): (r: Option<nat>)
    ensures r.Some? <==> n in SheetsWrittenAll(logs)
    ensures r.Some? ==> r.value < |logs| && n in SheetWritten(logs[r.value])
    ensures r.Some? ==> forall k :: r.value < k < |logs| ==> n !in SheetWritten(logs[k])
  {
    if logs == [] then None
    else if n in SheetWritten(logs[|logs| - 1]) then Some(|logs| - 1)
    else LastExport(logs[..|logs| - 1], n)
  }

  /** Every sheet the logged projects wrote holds the export of the last
      project that wrote it. */
  ghost predicate SheetsHold(items: seq<Json>, logs: seq<ProjectLog>, p: Parsers, sheets: map<string, Table>) {
    forall n :: n in SheetsWrittenAll(logs) ==>
      && n in sheets
      && LastExport(logs, n).Some?
      && var j := LastExport(logs, n).value;
         j < |items| && Identity(items[j]).Some? && LogHolds(Identity(items[j]).value.1, logs[j], p, sheets[n])
  }

  /** Exporting the next project keeps the sheets holding their last export. */
  lemma SheetsHoldAppend(items: seq<Json>, logs: seq<ProjectLog>, log: ProjectLog, p: Parsers,
                         sheets0: map<string, Table>, sheets: map<string, Table>)
    requires SheetsHold(items, logs, p, sheets0)
    requires |logs| < |items| && Identity(items[|logs|]).Some?
    requires Keeps(sheets0, sheets, SheetWritten(log))
    requires log.exported.Some? && log.exported.value.Ok? ==>
               log.exported.value.value in sheets
               && LogHolds(Identity(items[|logs|]).value.1, log, p, sheets[log.exported.value.value])
    ensures SheetsHold(items, logs + [log], p, sheets)
  {
    var all := logs + [log];
    assert all[..|logs|] == logs;
    forall n | n in SheetsWrittenAll(all)
      ensures n in sheets && LastExport(all, n).Some?
      ensures var j := LastExport(all, n).value;
              j < |items| && Identity(items[j]).Some? && LogHolds(Identity(items[j]).value.1, all[j], p, sheets[n])
    {
      if n !in SheetWritten(log) {
        assert LastExport(all, n) == LastExport(logs, n);
        assert all[LastExport(logs, n).value] == logs[LastExport(logs, n).value];
      }
    }
  }

  /** Runs the next project, whose `id` and `name` could be read. */
  method Advance(items: seq<Json>, logs0: seq<ProjectLog>, s: Settings, hasProgressBar: bool, clock: nat -> int,
                 respond: nat -> nat -> Response<Payload>, p: Parsers, disk0: Disk, before: Disk)
    returns (logs: seq<ProjectLog>, disk: Disk)
    requires LogsDone(items, logs0, s, clock, respond) && |logs0| < |items| && Identity(items[|logs0|]).Some?
    ensures |logs| == |logs0| + 1 && logs[..|logs0|] == logs0
    ensures LogsDone(items, logs, s, clock, respond)
    ensures NoExportFailed(logs0) && !(logs[|logs0|].exported.Some? && logs[|logs0|].exported.value.Err?) ==>
              NoExportFailed(logs)
    ensures disk.consolidated == before.consolidated
    ensures before.raw.Keys == disk0.raw.Keys + RawWrittenAll(clock, logs0) ==>
              disk.raw.Keys == disk0.raw.Keys + RawWrittenAll(clock, logs)
    ensures before.sheets.Keys == disk0.sheets.Keys + SheetsWrittenAll(logs0) ==>
              disk.sheets.Keys == disk0.sheets.Keys + SheetsWrittenAll(logs)
    ensures Keeps(disk0.raw, before.raw, RawWrittenAll(clock, logs0)) ==>
              Keeps(disk0.raw, disk.raw, RawWrittenAll(clock, logs))
    ensures Keeps(disk0.sheets, before.sheets, SheetsWrittenAll(logs0)) ==>
              Keeps(disk0.sheets, disk.sheets, SheetsWrittenAll(logs))
    ensures before.raw == disk0.raw + RawFiles(clock, logs0) ==> disk.raw == disk0.raw + RawFiles(clock, logs)
    ensures SheetsHold(items, logs0, p, before.sheets) ==> SheetsHold(items, logs, p, disk.sheets)
  {
    var j := |logs0|;
    var identity := Identity(items[j]);
    var log;
    log, disk := RunProject(j, identity.value.0, identity.value.1, s, hasProgressBar, clock, respond, p, before);
    logs := logs0 + [log];
    WrittenAllAppend(clock, logs0, log);
    UnionRegroup(disk0.raw.Keys, RawWrittenAll(clock, logs0), RawWritten(clock, j, log));
    UnionRegroup(disk0.sheets.Keys, SheetsWrittenAll(logs0), SheetWritten(log));
    if Keeps(disk0.raw, before.raw, RawWrittenAll(clock, logs0)) {
      KeepsTrans(disk0.raw, before.raw, disk.raw, RawWrittenAll(clock, logs0), RawWritten(clock, j, log));
    }
    if Keeps(disk0.sheets, before.sheets, SheetsWrittenAll(logs0)) {
      KeepsTrans(disk0.sheets, before.sheets, disk.sheets, SheetsWrittenAll(logs0), SheetWritten(log));
    }
    LogsDoneAppend(items, logs0, log, s, clock, respond);
    if before.raw == disk0.raw + RawFiles(clock, logs0) {
      RawFilesStep(clock, logs0, log, disk0.raw, before.raw, disk.raw);
    }
    if SheetsHold(items, logs0, p, before.sheets) {
      SheetsHoldAppend(items, logs0, log, p, before.sheets, disk.sheets);
    }
    assert logs[..j] == logs0;
  }

  /**
   * The loop over the projects: stops at the first project whose `id` or
   * `name` cannot be read, or whose export raises.
   */
  method ProjectLoop(items: seq<Json>, s: Settings, hasProgressBar: bool, clock: nat -> int,
                     respond: nat -> nat -> Response<Payload>, p: Parsers, disk0: Disk)
    returns (logs: seq<ProjectLog>, crash: Option<Crash>, disk: Disk)
    ensures LogsDone(items, logs, s, clock, respond)
    ensures crash.None? ==> |logs| == |items| && NoExportFailed(logs)
    ensures crash.Some? ==> !crash.value.BadListing?
    ensures crash.Some? && crash.value.BadProject? ==>
              crash.value.index == |logs| < |items| && Identity(items[|logs|]).None? && NoExportFailed(logs)
    ensures crash.Some? && crash.value.ExportRaised? ==>
              crash.value.index == |logs| - 1 && logs[|logs| - 1].exported == Some(Err(crash.value.error))
              && NoExportFailed(logs[..|logs| - 1])
    ensures disk.consolidated == disk0.consolidated
    ensures disk.raw.Keys == disk0.raw.Keys + RawWrittenAll(clock, logs)
    ensures disk.sheets.Keys == disk0.sheets.Keys + SheetsWrittenAll(logs)
    ensures Keeps(disk0.raw, disk.raw, RawWrittenAll(clock, logs))
    ensures Keeps(disk0.sheets, disk.sheets, SheetsWrittenAll(logs))
    ensures disk.raw == disk0.raw + RawFiles(clock, logs)
    ensures SheetsHold(items, logs, p, disk.sheets)
  {
    disk := disk0;
    logs := [];
    assert disk0.raw + RawFiles(clock, logs) == disk0.raw;
    var j := 0;
    while j < |items|
      invariant j == |logs| <= |items|
      invariant LogsDone(items, logs, s, clock, respond)
      invariant NoExportFailed(logs)
      invariant disk.consolidated == disk0.consolidated
      invariant disk.raw.Keys == disk0.raw.Keys + RawWrittenAll(clock, logs)
      invariant disk.sheets.Keys == disk0.sheets.Keys + SheetsWrittenAll(logs)
      invariant Keeps(disk0.raw, disk.raw, RawWrittenAll(clock, logs))
      invariant Keeps(disk0.sheets, disk.sheets, SheetsWrittenAll(logs))
      invariant disk.raw == disk0.raw + RawFiles(clock, logs)
      invariant SheetsHold(items, logs, p, disk.sheets)
    {
      var identity := Identity(items[j]);
      if identity.None? {
        return logs, Some(BadProject(j)), disk;
      }
      logs, disk := Advance(items, logs, s, hasProgressBar, clock, respond, p, disk0, disk);
      var log := logs[|logs| - 1];
      if log.exported.Some? && log.exported.value.Err? {
        return logs, Some(ExportRaised(j, log.exported.value.error)), disk;
      }
      j := j + 1;
    }
    crash := None;
  }

  /**
   * After the loop: merge the sheets directory's `activities_project_*.xlsx`
   * files, in listing order, into the workbook (left as it was when there is
   * none), then delete the raw responses.
   */
  method Finish(disk0: Disk, removable: string -> bool) returns (order: seq<string>, disk: Disk)
    ensures disk.sheets == disk0.sheets
    ensures forall n :: n in order <==> n in disk0.sheets && IsSheetFile(n)
    ensures NoDuplicates(order)
    ensures disk.consolidated == if order == [] then disk0.consolidated
                                 else Some(ConcatAll(SheetsInOrder(disk0.sheets, order)))
    ensures disk.raw.Keys <= disk0.raw.Keys
    ensures forall n :: n in disk.raw ==> disk.raw[n] == disk0.raw[n]
    ensures forall n :: n in disk0.raw && !IsRawJson(n) ==> n in disk.raw
    ensures (forall n :: removable(n)) ==> forall n :: n in disk.raw ==> !IsRawJson(n)
  {
    disk := disk0;
    order := ListDir(set n | n in disk.sheets && IsSheetFile(n));
    var tables := SheetsInOrder(disk.sheets, order);
    var writes := ConsolidateSheets(tables);
    if writes != [] {
      assert AllWellFormed(tables);
      ConsolidatedShape(tables, "");
      disk := disk.(consolidated := Some(writes[|writes| - 1]));
    }
    var rawListing := ListDir(disk.raw.Keys);
    var removed, after := CleanRawResponses(Some(rawListing), removable);
    disk := disk.(raw := map n | n in disk.raw && n in after.value :: disk.raw[n]);
  }

  /**
   * The whole run. `listing` is the project listing (`None` when it failed),
   * `respond(j)` the answers to the `j`-th project's attempts, `clock(j)` the
   * time of its download in milliseconds, `removable` whether deleting a raw
   * file succeeds. `order` is the order the sheets directory was listed in.
   * A crash skips the merge and the cleanup.
   */
  method Run(listing: Option<Json>, s: Settings, hasProgressBar: bool, clock: nat -> int,
             respond: nat -> nat -> Response<Payload>, p: Parsers, removable: string -> bool, disk0: Disk)
    returns (logs: seq<ProjectLog>, crash: Option<Crash>, order: seq<string>, disk: Disk)
    ensures listing.None? ==> crash == Some(BadListing) && logs == [] && disk == disk0
    ensures Projects(listing).Err? ==> crash == Some(Projects(listing).error) && logs == [] && disk == disk0
    ensures Projects(listing).Ok? ==> LogsDone(Projects(listing).value, logs, s, clock, respond)
    ensures crash.None? ==> Projects(listing).Ok? && |logs| == |Projects(listing).value| && NoExportFailed(logs)
    ensures crash.Some? && crash.value.BadProject? ==>
              Projects(listing).Ok? && crash.value.index == |logs| < |Projects(listing).value|
              && Identity(Projects(listing).value[|logs|]).None? && NoExportFailed(logs)
    ensures crash.Some? && crash.value.ExportRaised? ==>
              crash.value.index == |logs| - 1 && logs[|logs| - 1].exported == Some(Err(crash.value.error))
              && NoExportFailed(logs[..|logs| - 1])
    ensures crash.Some? ==> disk.consolidated == disk0.consolidated
                            && disk.raw.Keys == disk0.raw.Keys + RawWrittenAll(clock, logs)
                            && disk.sheets.Keys == disk0.sheets.Keys + SheetsWrittenAll(logs)
                            && Keeps(disk0.raw, disk.raw, RawWrittenAll(clock, logs))
                            && disk.raw == disk0.raw + RawFiles(clock, logs)
    ensures Keeps(disk0.sheets, disk.sheets, SheetsWrittenAll(logs))
    ensures Projects(listing).Ok? ==> SheetsHold(Projects(listing).value, logs, p, disk.sheets)
    ensures Projects(listing).Ok? ==>
              forall n :: n in disk.sheets ==> Explained(Projects(listing).value, logs, p, disk0.sheets, n, disk.sheets[n])
    ensures crash.None? ==>
              && disk.sheets.Keys == disk0.sheets.Keys + SheetsWrittenAll(logs)
              && (forall n :: n in order <==> n in disk.sheets && IsSheetFile(n))
              && NoDuplicates(order)
              && disk.consolidated == (if order == [] then disk0.consolidated
                                       else Some(ConcatAll(SheetsInOrder(disk.sheets, order))))
              && disk.raw.Keys <= disk0.raw.Keys + RawWrittenAll(clock, logs)
              && (forall n :: n in disk0.raw && !IsRawJson(n) ==> n in disk.raw)
              && (forall n :: n in disk.raw && n in disk0.raw && n !in RawWrittenAll(clock, logs) ==>
                                disk.raw[n] == disk0.raw[n])
              && ((forall n :: removable(n)) ==> forall n :: n in disk.raw ==> !IsRawJson(n))
              && (forall n :: n in disk.raw ==>
                                n in disk0.raw + RawFiles(clock, logs) && disk.raw[n] == (disk0.raw + RawFiles(clock, logs))[n])
  {
    var projects := Projects(listing);
    if projects.Err? {
      assert disk0.raw + RawFiles(clock, []) == disk0.raw;
      return [], Some(projects.error), [], disk0;
    }
    var afterLoop;
    logs, crash, afterLoop := ProjectLoop(projects.value, s, hasProgressBar, clock, respond, p, disk0);
    SheetsExplained(projects.value, logs, p, disk0.sheets, afterLoop.sheets);
    if crash.Some? {
      return logs, crash, [], afterLoop;
    }
    order, disk := Finish(afterLoop, removable);
  }

  /**
   * The sheet `n`, holding `table`, holds the export of the last project of
   * the run that wrote it, or is a sheet that was already in the directory
   * before the run and that the run did not touch.
   */
  ghost predicate Explained(items: seq<Json>, logs: seq<ProjectLog>, p: Parsers, sheets0: map<string, Table>,
                            n: string, table: Table)
  {
    if n in SheetsWrittenAll(logs) then
      var j := LastExport(logs, n).value;
      j < |items| && Identity(items[j]).Some? && LogHolds(Identity(items[j]).value.1, logs[j], p, table)
    else
      n in sheets0 && table == sheets0[n]
  }

  /**
   * Every sheet in the directory after the loop, and so every sheet the merge
   * reads (`SheetsInOrder`), is explained by the run or predates it.
   */
  lemma SheetsExplained(items: seq<Json>, logs: seq<ProjectLog>, p: Parsers, sheets0: map<string, Table>,
                        sheets: map<string, Table>)
    requires SheetsHold(items, logs, p, sheets)
    requires Keeps(sheets0, sheets, SheetsWrittenAll(logs))
    requires sheets.Keys == sheets0.Keys + SheetsWrittenAll(logs)
    ensures forall n :: n in sheets ==> Explained(items, logs, p, sheets0, n, sheets[n])
  {
    forall n | n in sheets
      ensures Explained(items, logs, p, sheets0, n, sheets[n])
    {
      SheetExplained(items, logs, p, sheets0, sheets, n, sheets[n]);
    }
  }

  /** One sheet of the directory after the loop is explained. */
  lemma SheetExplained(items: seq<Json>, logs: seq<ProjectLog>, p: Parsers, sheets0: map<string, Table>,
                       sheets: map<string, Table>, n: string, table: Table)
    requires SheetsHold(items, logs, p, sheets)
    requires Keeps(sheets0, sheets, SheetsWrittenAll(logs))
    requires sheets.Keys == sheets0.Keys + SheetsWrittenAll(logs)
    requires n in sheets && table == sheets[n]
    ensures Explained(items, logs, p, sheets0, n, table)
  {
  }

  /** Appending the next project's log keeps the loop's promises. */
  lemma LogsDoneAppend(items: seq<Json>, logs: seq<ProjectLog>, log: ProjectLog, s: Settings, clock: nat -> int,
                       respond: nat -> nat -> Response<Payload>)
    requires LogsDone(items, logs, s, clock, respond) && |logs| < |items|
    requires Identity(items[|logs|]).Some?
    requires ProjectDone(|logs|, Identity(items[|logs|]).value.0, Identity(items[|logs|]).value.1, s, clock, respond, log)
    ensures LogsDone(items, logs + [log], s, clock, respond)
    ensures NoExportFailed(logs) && !(log.exported.Some? && log.exported.value.Err?) ==> NoExportFailed(logs + [log])
  {
    var all := logs + [log];
    assert forall j :: 0 <= j < |logs| ==> all[j] == logs[j];
  }

  /** Adding to a union in two steps. */
  lemma UnionRegroup<T>(a: set<T>, b: set<T>, c: set<T>)
    ensures (a + b) + c == a + (b + c)
  {
  }

  /** Appending a project's log adds what that project wrote. */
  lemma WrittenAllAppend(clock: nat -> int, logs: seq<ProjectLog>, log: ProjectLog)
    ensures RawWrittenAll(clock, logs + [log]) == RawWrittenAll(clock, logs) + RawWritten(clock, |logs|, log)
    ensures SheetsWrittenAll(logs + [log]) == SheetsWrittenAll(logs) + SheetWritten(log)
  {
    assert (logs + [log])[..|logs|] == logs;
  }
}

=== FILE: Throttle.dfy ===
/**
 * The pause between two requests (`aguardar_intervalo`). The sleeps it makes
 * are returned as the list of their durations, in order.
 */
module Throttle {

  /** Total time slept. */
  function Total(sleeps: seq<int>): int {
    if sleeps == [] then 0 else sleeps[0] + Total(sleeps[1..])
  }

  lemma {:induction false} TotalAppend(a: seq<int>, b: seq<int>)
    ensures Total(a + b) == Total(a) + Total(b)
  {
    if a != [] {
      assert (a + b)[1..] == a[1..] + b;
      TotalAppend(a[1..], b);
    } else {
      assert a + b == b;
    }
  }

  lemma {:induction false} TotalAtLeastLength(sleeps: seq<int>)
    requires forall i :: 0 <= i < |sleeps| ==> 1 <= sleeps[i]
    ensures Total(sleeps) >= |sleeps|
  {
    if sleeps != [] {
      TotalAtLeastLength(sleeps[1..]);
    }
  }

  /** The progress-bar increment `max(1, seconds // 100)`. */
  function Step(seconds: int): (p: int)
    ensures p >= 1
    ensures seconds < 200 ==> p == 1
    ensures seconds >= 100 ==> p == seconds / 100
    ensures 0 < seconds ==> p <= seconds
  {
    if seconds / 100 > 1 then seconds / 100 else 1
  }

  /**
   * Waits `seconds`. With no progress bar available it sleeps once for the
   * whole interval; with one it sleeps in chunks of `Step(seconds)` and a
   * shorter last chunk, until nothing remains.
   */
  method Wait(seconds: int, hasProgressBar: bool) returns (sleeps: seq<int>)
    ensures seconds <= 0 ==> sleeps == []
    ensures seconds > 0 ==> Total(sleeps) == seconds
    ensures seconds > 0 && !hasProgressBar ==> sleeps == [seconds]
    ensures hasProgressBar ==> forall i :: 0 <= i < |sleeps| ==> 1 <= sleeps[i] <= Step(seconds)
    ensures hasProgressBar ==> forall i :: 0 <= i < |sleeps| - 1 ==> sleeps[i] == Step(seconds)
    ensures hasProgressBar && seconds > 0 ==>
              (|sleeps| - 1) * Step(seconds) < seconds <= |sleeps| * Step(seconds)
  {
    if seconds <= 0 {
      return [];
    }
    if !hasProgressBar {
      return [seconds];
    }
    var step := Step(seconds);
    var remaining := seconds;
    sleeps := [];
    while remaining > 0
      invariant 0 <= remaining <= seconds
      invariant Total(sleeps) + remaining == seconds
      invariant forall i :: 0 <= i < |sleeps| ==> 1 <= sleeps[i] <= step
      invariant remaining > 0 ==> forall i :: 0 <= i < |sleeps| ==> sleeps[i] == step
      invariant forall i :: 0 <= i < |sleeps| - 1 ==> sleeps[i] == step
      decreases remaining
    {
      var chunk := if step < remaining then step else remaining;
      TotalAppend(sleeps, [chunk]);
      sleeps := sleeps + [chunk];
      remaining := remaining - chunk;
    }
    ChunkCount(sleeps, seconds, step);
  }

  /** The chunks of a wait with a progress bar, counted: one per started step. */
  lemma {:induction false} ChunkCount(sleeps: seq<int>, seconds: int, step: int)
    requires step >= 1 && seconds > 0
    requires Total(sleeps) == seconds
    requires forall i :: 0 <= i < |sleeps| ==> 1 <= sleeps[i] <= step
    requires forall i :: 0 <= i < |sleeps| - 1 ==> sleeps[i] == step
    ensures (|sleeps| - 1) * step < seconds <= |sleeps| * step
    decreases |sleeps|
  {
    if |sleeps| > 1 {
      assert sleeps[0] == step;
      TotalAtLeastLength(sleeps[1..]);
      ChunkCount(sleeps[1..], seconds - step, step);
    }
  }
}

=== FILE: Wrappers.dfy ===
/** Option and Result, the failure-carrying values used throughout the model. */
module Wrappers {

  datatype Option<+T> = None | Some(value: T)

  datatype Result<+T, +E> = Ok(value: T) | Err(error: E)
}
